=== FILE: README.md ===
# MiniOrangeI core, modelled in Dafny

MiniOrangeI is an iOS client for a cluster of devices. It has a WebSocket
control channel and a screen-video media path. This project models its
sequential logic as immutable Dafny datatypes and pure functions, and proves
properties about them:

- **Media receive side** (`h264_decoder.dfy`, module `H264Decoder`):
  - strips the binary packet header `[0xAA][type][snLen][sn][payload]`;
  - accumulates payloads;
  - scans the accumulator for ITU-T H.264 Annex B start codes (`00 00 01`, `00 00 00 01`, section B.1) and emits the units between them;
  - compacts the accumulator;
  - runs the decode-session controller: SPS/PPS caching, building the format description at most once, and submitting length-prefixed picture samples (ISO/IEC 14496-15, section 5.3).
- **Media send side** (`screen_recorder.dfy`, module `ScreenRecorder`): walks the encoder's AVCC records into Annex B units and frames each unit as a packet for the current viewer.
- **Round trip** (`media_round_trip.dfy`): the two sides composed.
  - A framed unit is exactly what the decoder appends.
  - A stream of start-code-free units comes out of the decoder unchanged and in order; the newest unit waits for the next packet.
- **Connection manager** (`websocket_manager.dfy`, `connection_properties.dfy`):
  - connect/disconnect and the reconnect task slot;
  - ping/heartbeat rounds and the socket delegate events;
  - `setup`'s token handling;
  - the control-message router over an abstract JSON value (`json.dfy`).

  Everything is a step function over events, and `Run` folds a trace.
- **Host race** (`host_race.dfy`): `raceToFindFastestHost` as a function of which probes answered and in which order they completed.
- **Saved servers** (`server_manager.dfy`): add with de-duplication by URL, rename by id, remove at offsets, disconnect the current server, switch server.
- **Device list** (`device_list.dfy`):
  - the one-second polling gate;
  - `myDevice`;
  - the ordered `remoteDevices` list;
  - the icon classifier.
- **Shared definitions**: `common.dfy` (bytes, big-endian length fields, packet constants) and `models.dfy` (`Device`, `WorkflowItem`).

Inputs the code takes from the platform become parameters:

- the result of `CMVideoFormatDescriptionCreateFromH264ParameterSets` is a function `configure`;
- the URL parser's result is an `Option<Url>`, and whether `URLComponents` rebuilds the URL is a `bool`;
- the probe outcomes are sequences;
- socket and timer callbacks are `Event` values.

Two behaviours of the code are worth knowing before reading the contracts:

- **Parameter sets.** The code replaces the cached SPS and PPS on every arrival, but never rebuilds an existing format description. `H264Decoder.DecodeUnit` and `FormatNeverReplaced` state this.
- **Long identity.** `sendPacket` has no length error: `UInt8(snData.count)` traps above 255. This is modelled as the precondition `|sn| <= 255`.

## Model

| member | source | states |
|---|---|---|
| Common.BigEndian32 | MiniOrangeI/H264Decoder.swift:172-176 | the four bytes written for a UInt32 length read back, big-endian, as that length |
| Common.BigEndian32OfRead | MiniOrangeI/ScreenRecorder.swift:129-131 | reading four bytes as a big-endian length and writing it back gives the same four bytes |
| H264Decoder.PacketPayload | MiniOrangeI/H264Decoder.swift:65-75 | a packet is accepted iff it has more than 3 bytes, starts with 0xAA and is longer than 3 + data[2]; the payload is then nonempty and the packet is header followed by payload |
| H264Decoder.StartCodeLenAt | MiniOrangeI/H264Decoder.swift:87-95 | the length at an offset is 3 exactly for 00 00 01, 4 exactly for 00 00 00 01, else 0 |
| H264Decoder.Scan | MiniOrangeI/H264Decoder.swift:83-108 | the detected codes are genuine, start at offsets below len-3, do not overlap, increase, and no start code is skipped before, between or after them (GreedyParse) |
| H264Decoder.GreedyParseUnique | MiniOrangeI/H264Decoder.swift:83-108 | at most one list of codes meets GreedyParse, so Scan's contract fixes its result |
| H264Decoder.Units | MiniOrangeI/H264Decoder.swift:97-104 | one unit fewer than codes; unit k is exactly the bytes from the end of code k to the start of code k+1 |
| H264Decoder.Emitted | MiniOrangeI/H264Decoder.swift:97-104 | every emitted unit is shorter than the accumulator it came from |
| H264Decoder.PassConservesBytes | MiniOrangeI/H264Decoder.swift:97-104 | codes and units interleaved rebuild the accumulator from the first code up to the last: no byte lost or duplicated, and nothing from the last code on is emitted |
| H264Decoder.Compacted | MiniOrangeI/H264Decoder.swift:110-114 | only a prefix is dropped; with a code the buffer becomes the suffix from the last code; without one it is kept unless over 500,000 bytes, when it becomes empty |
| H264Decoder.NoStartCodeMeansNoUnits | MiniOrangeI/H264Decoder.swift:110-114 | a pass over a buffer without start codes emits nothing and only applies the 500,000-byte ceiling |
| H264Decoder.CreateFormat | MiniOrangeI/H264Decoder.swift:137-160 | the format changes iff none exists, both parameter sets are cached and configuration succeeds; it is then built from the cached SPS and PPS, and nothing else changes |
| H264Decoder.LengthPrefixed | MiniOrangeI/H264Decoder.swift:165-180 | the sample is 4 + n bytes whose big-endian header reads n and whose tail is the unit |
| H264Decoder.SampleUnitInvertsLengthPrefixed | MiniOrangeI/H264Decoder.swift:165-180 | parsing the length-prefixed sample gives back the unit |
| H264Decoder.Enqueue | MiniOrangeI/H264Decoder.swift:162-180 | without a format nothing is submitted; with one, exactly one sample of that format holding the length-prefixed unit is appended |
| H264Decoder.DecodeUnit | MiniOrangeI/H264Decoder.swift:117-135 | empty and unknown-type units change nothing; types 7 and 8 replace the SPS and PPS caches; a format is built only on a PPS or IDR unit, always is on such a unit when none exists, both sets are cached and configuration succeeds, and is never replaced; only types 1 and 5 submit, one sample each, and they always do when a format exists |
| H264Decoder.ExtractNalus | MiniOrangeI/H264Decoder.swift:77-115 | after a pass the accumulator is the compacted one |
| H264Decoder.ProcessRawBytes | MiniOrangeI/H264Decoder.swift:65-75 | a dropped packet leaves the decoder unchanged; an accepted one appends exactly data[3+data[2]..] before the scan |
| H264Decoder.TypeByteIgnored | MiniOrangeI/H264Decoder.swift:65-75 | changing the packet's type byte never changes the outcome |
| H264Decoder.DecodeAllAppend | MiniOrangeI/H264Decoder.swift:97-104 | handling units a then b, as the scan emits them, is handling a followed by handling b |
| H264Decoder.DecodeAllIgnoresBuffer | MiniOrangeI/H264Decoder.swift:117-135 | unit handling never reads or writes the accumulator |
| H264Decoder.FormatNeverReplaced | MiniOrangeI/H264Decoder.swift:137-160 | over any run of units an existing format is kept, even when new SPS/PPS arrive, and the sample log only grows |
| H264Decoder.NoSubmissionWithoutFormat | MiniOrangeI/H264Decoder.swift:162-164 | from a fresh controller, if no format exists at the end then nothing was ever submitted |
| H264Decoder.ParameterSetsThenPictures | MiniOrangeI/H264Decoder.swift:117-135 | SPS, PPS, IDR, P, P yields one format from that SPS and PPS and exactly three samples, in order |
| H264Decoder.PicturesWithFormat | MiniOrangeI/H264Decoder.swift:128-133 | once a format exists, any run of type 1 and 5 units is submitted in full, in order, one sample each under that format, and the format is kept |
| H264Decoder.ParameterSetsBuildFormat | MiniOrangeI/H264Decoder.swift:117-135 | from any controller without a format, an SPS then a PPS the platform accepts build the format from exactly those two units and submit nothing |
| H264Decoder.StreamAfterParameterSets | MiniOrangeI/H264Decoder.swift:117-135 | from any controller without a format, SPS, PPS and then any pictures submit every picture, in order, under the format built from that SPS and PPS |
| ScreenRecorder.AnnexBUnits | MiniOrangeI/ScreenRecorder.swift:124-143 | every unit the walk emits starts with 00 00 00 01 |
| ScreenRecorder.AvccToAnnexB | MiniOrangeI/ScreenRecorder.swift:128-142 | for well-formed encoder output the walk emits each record behind a start code, and the concatenated output is the input with every length header replaced by 00 00 00 01 |
| ScreenRecorder.WalkShift | MiniOrangeI/ScreenRecorder.swift:128-142 | the walk from an offset does not depend on the bytes before it |
| ScreenRecorder.TrailingEmptyRecordDropped | MiniOrangeI/ScreenRecorder.swift:128 | because the loop runs only while more than four bytes remain, a final empty record is never emitted |
| ScreenRecorder.Frame | MiniOrangeI/ScreenRecorder.swift:150-157 | the packet is 0xAA, 0x02, \|sn\|, the sn bytes, then the unit, and nothing else |
| ScreenRecorder.SendPacket | MiniOrangeI/ScreenRecorder.swift:146-161 | nothing is handed to `send(data:)` iff no viewer is set; otherwise exactly the framed packet for that viewer |
| ScreenRecorder.HandleEncodedFrame | MiniOrangeI/ScreenRecorder.swift:124-143 | no packets without a viewer; otherwise one packet per walked unit, in order, each framed for the viewer |
| MediaRoundTrip.PacketRoundTrip | MiniOrangeI/ScreenRecorder.swift:150-157 | the decoder's header check accepts a framed nonempty unit and recovers it unchanged |
| MediaRoundTrip.SentPacketAppendsUnit | MiniOrangeI/H264Decoder.swift:65-75 | a sent packet, processed, appends exactly its unit to the accumulator before the scan |
| MediaRoundTrip.PassOverTwoUnits | MiniOrangeI/H264Decoder.swift:83-114 | an accumulator holding start code + u + start code + v (both start-code free) emits exactly u and keeps start code + v |
| MediaRoundTrip.Deliver | MiniOrangeI/H264Decoder.swift:77-115 | feeding packets of start code + unit one by one hands every unit but the newest to the controller unchanged and in order; the newest waits in the accumulator |
| MediaRoundTrip.StreamRoundTrip | MiniOrangeI/H264Decoder.swift:83-114 | a fresh decoder fed units u1..un has handled u1..u(n-1) exactly and holds start code + un |
| MediaRoundTrip.EncodedFrameIsUnitStream | MiniOrangeI/ScreenRecorder.swift:124-161 | the packets sent for an encoder buffer are one framed start code + record per record, in order, which is the stream the decoder theorems consume |
| Json.StringField | MiniOrangeI/WebSocketManager.swift:346 | a string is read iff the key is present with a string value, and it is that value |
| Json.IntField | MiniOrangeI/WebSocketManager.swift:332 | an integer is read iff the key is present with an integer value, and it is that value |
| Json.ObjectField | MiniOrangeI/WebSocketManager.swift:368 | an object is read iff the key is present with an object value |
| Json.ObjectListField | MiniOrangeI/WebSocketManager.swift:352 | a list is read iff the value is an array whose every element is an object; it then lists their field maps in order |
| WebSocketManager.CancelTask | MiniOrangeI/WebSocketManager.swift:200 | cancelling leaves no pending task, and an empty field stays empty while an occupied one stays occupied |
| WebSocketManager.Send | MiniOrangeI/WebSocketManager.swift:293-301 | a message is logged as sent iff a socket exists, and nothing else changes; the contract states the body case by case, and ConnectThenOpen and RefreshIfConnected carry the substance |
| WebSocketManager.ClearState | MiniOrangeI/WebSocketManager.swift:192-197 | the lists are emptied and both flags cleared; no other field changes |
| WebSocketManager.Connect | MiniOrangeI/WebSocketManager.swift:199-210 | the URL is remembered and a socket opened for it; connecting and the ping loop start; no task stays pending but an occupied slot stays occupied; isConnected, the offline flag, the lists, the server name, the viewer and every log are untouched |
| WebSocketManager.InternalDisconnect | MiniOrangeI/WebSocketManager.swift:219-225 | from any state: no socket, ping loop stopped, neither connecting nor connected; every other field, URL, slot, offline flag, lists, viewer and logs included, untouched |
| WebSocketManager.Disconnect | MiniOrangeI/WebSocketManager.swift:212-217 | no URL, no pending task, no socket, no ping loop, both flags and the offline flag cleared, lists emptied; a cancelled task stays in the field, which is occupied iff it was before; the viewer, the server name and the logs untouched |
| WebSocketManager.ScheduleReconnect | MiniOrangeI/WebSocketManager.swift:227-236 | a task for the remembered URL is held iff a URL is remembered and the field is empty, else nothing changes; the contract states the body case by case, and FreedSlotAlwaysRetries and CancelledIsPermanent carry the substance |
| WebSocketManager.TimerFired | MiniOrangeI/WebSocketManager.swift:229-234 | a pending task frees the field and connects to its URL; a cancelled one, or none, does nothing; the contract states the body case by case, and NoAutomaticReconnect and CorrectedTraceReconnects carry the substance |
| WebSocketManager.Failure | MiniOrangeI/WebSocketManager.swift:404-409 | a close, receive error or ping error tears the connection down and schedules a reconnect to the remembered URL iff a URL is remembered and the slot is empty; the URL, the offline flag, the lists, the viewer and the logs are untouched |
| WebSocketManager.Opened | MiniOrangeI/WebSocketManager.swift:383-402 | connected, no longer connecting, and one registration message sent when a socket exists; nothing else changes, URL and slot included |
| WebSocketManager.HeartbeatDue | MiniOrangeI/WebSocketManager.swift:238-262 | a stopped loop does nothing; a round that finds the manager disconnected ends the loop; otherwise one heartbeat goes through send; a round changes only the loop flag and the sent log, by at most that one heartbeat; the case clauses state the body, and HeartbeatLostBeforeOpen carries the substance |
| WebSocketManager.WithToken | MiniOrangeI/WebSocketManager.swift:128-135 | the query ends with the user token and holds no other "token" item |
| WebSocketManager.WithoutToken | MiniOrangeI/WebSocketManager.swift:131 | every "token" item removed, and every other item kept |
| WebSocketManager.Setup | MiniOrangeI/WebSocketManager.swift:116-136 | state cleared; an unparsable URL stops there; otherwise the server name is the host or "Unknown"; if URLComponents rebuilds the URL it connects to it with its query rewritten by WithToken, and otherwise nothing else happens |
| WebSocketManager.DeviceOf | MiniOrangeI/WebSocketManager.swift:361-364 | an entry decodes iff it has string sn and model, whatever other keys it has, and the device carries that sn and model and its string status or else "offline" |
| WebSocketManager.DecodeDevices | MiniOrangeI/WebSocketManager.swift:359-366 | no more devices than entries; DecodeDevicesSingle fixes the result for one entry of any shape, and DecodeDevicesAppend extends it entry by entry to every list, so the result is the in-order decoding of the well-formed entries |
| WebSocketManager.WorkflowOf | MiniOrangeI/WebSocketManager.swift:353-356 | an entry decodes iff it has string id, name and icon, whatever other keys it has, and the item carries those three and the color when it is a string |
| WebSocketManager.DecodeWorkflows | MiniOrangeI/WebSocketManager.swift:350-358 | no more items than entries; DecodeWorkflowsSingle fixes the result for one entry of any shape, and DecodeWorkflowsAppend extends it entry by entry to every list, so the result is the in-order decoding of the well-formed entries |
| WebSocketManager.Dispatch | MiniOrangeI/WebSocketManager.swift:346-379 | app_graph/list with an object-list data publishes its decoded workflows; device_list and get_device_list publish the decoded devices; get_device_password with a string password publishes it; start_stream with a string viewer_sn makes it current and posts the start notice; stop_stream posts the stop notice; a malformed payload or any other action changes nothing, and no action touches the connection |
| WebSocketManager.HandleMessage | MiniOrangeI/WebSocketManager.swift:327-380 | non-objects are dropped; code 503 sets the offline flag, 200 with action register clears it, anything else keeps it; the connection is never touched |
| WebSocketManager.AfterStatus | MiniOrangeI/WebSocketManager.swift:337-343 | a code 200 with action register clears the offline flag; otherwise the flag stays; nothing else changes |
| WebSocketManager.Route | MiniOrangeI/WebSocketManager.swift:346 | a message without a string action changes nothing; dispatch never touches the offline flag or the connection |
| WebSocketManager.Step | MiniOrangeI/WebSocketManager.swift:227-236 | every event keeps a pending task pointing at the remembered URL, and a cancelled task never leaves the slot |
| WebSocketManager.RunAppend | MiniOrangeI/WebSocketManager.swift:303-325 | running a trace a then b is running a, then b |
| ConnectionProperties.CancelledIsPermanent | MiniOrangeI/WebSocketManager.swift:227-236 | once cancelled, the reconnect slot stays occupied under every event sequence |
| ConnectionProperties.NoAutomaticReconnect | MiniOrangeI/WebSocketManager.swift:227-236 | with a cancelled slot and no socket, no sequence of network or timer events ever opens a socket again |
| ConnectionProperties.ReconnectLostAfterCancel | MiniOrangeI/WebSocketManager.swift:199-236 | connect, open, close, connect again, open, close ends disconnected with the slot held by a cancelled task, so the reconnect timer does nothing |
| ConnectionProperties.StepFreeingSlot | MiniOrangeI/WebSocketManager.swift:227-236 | the corrected step never leaves a cancelled task in the slot and agrees with Step on every other field |
| ConnectionProperties.FreedSlotAlwaysRetries | MiniOrangeI/WebSocketManager.swift:404-409 | with the corrected step, every failure while a URL is remembered leaves a reconnect pending for it |
| ConnectionProperties.RunFreeingSlot | MiniOrangeI/WebSocketManager.swift:227-236 | no run of the corrected step ever holds a cancelled task |
| ConnectionProperties.CorrectedTraceReconnects | MiniOrangeI/WebSocketManager.swift:227-236 | on the same trace the corrected step leaves a reconnect pending, and the timer reopens the socket |
| ConnectionProperties.InternalDisconnectIdempotent | MiniOrangeI/WebSocketManager.swift:219-225 | a second internalDisconnect changes nothing |
| ConnectionProperties.DisconnectIsFinal | MiniOrangeI/WebSocketManager.swift:212-217 | after disconnect, no event other than connect or setup opens a socket or schedules a reconnect |
| ConnectionProperties.DormantStays | MiniOrangeI/WebSocketManager.swift:227-236 | with no URL, no pending task and no socket, events other than connect and setup keep it so |
| ConnectionProperties.ConnectThenOpen | MiniOrangeI/WebSocketManager.swift:199-210 | connect then didOpen leaves the manager connected and sends exactly one message, a registration carrying sn, type "ios", role "client" and the token |
| ConnectionProperties.HeartbeatLostBeforeOpen | MiniOrangeI/WebSocketManager.swift:238-262 | a ping round that comes before didOpen ends the loop, and the connection that then opens sends no heartbeat |
| ConnectionProperties.OfflineStopsDispatch | MiniOrangeI/WebSocketManager.swift:332-336 | code 503 sets the offline flag and nothing else happens, whatever the action |
| ConnectionProperties.RegistrationClearsOffline | MiniOrangeI/WebSocketManager.swift:332-343 | 503 then 200-register ends with the flag clear |
| ConnectionProperties.NoActionNoEffect | MiniOrangeI/WebSocketManager.swift:346 | a non-503 object without a string action changes nothing |
| ConnectionProperties.DevicesRoundTrip | MiniOrangeI/WebSocketManager.swift:359-366 | decoding encoded devices gives back every device, in order |
| ConnectionProperties.DecodeDevicesAppend | MiniOrangeI/WebSocketManager.swift:361-364 | the device decoder works entry by entry |
| ConnectionProperties.DecodeDevicesCount | MiniOrangeI/WebSocketManager.swift:359-366 | the compactMap yields one device per entry iff every entry has string sn and model, and none when no entry has |
| ConnectionProperties.DecodeDevicesSingle | MiniOrangeI/WebSocketManager.swift:359-366 | one entry of any shape decodes to the device of its string sn, model and status (or "offline") when sn and model are strings, and to nothing otherwise |
| ConnectionProperties.StatusDefaultsOffline | MiniOrangeI/WebSocketManager.swift:363 | an entry without a string status is an offline device |
| ConnectionProperties.WorkflowsRoundTrip | MiniOrangeI/WebSocketManager.swift:350-358 | decoding encoded workflow items gives back every item, color included, in order |
| ConnectionProperties.DecodeWorkflowsAppend | MiniOrangeI/WebSocketManager.swift:350-356 | the workflow decoder works entry by entry |
| ConnectionProperties.DecodeWorkflowsCount | MiniOrangeI/WebSocketManager.swift:350-358 | the compactMap yields one item per entry iff every entry has string id, name and icon, and none when no entry has |
| ConnectionProperties.DecodeWorkflowsSingle | MiniOrangeI/WebSocketManager.swift:350-358 | one entry of any shape decodes to the item of its string id, name and icon with its string color, when those three are strings, and to nothing otherwise |
| ConnectionProperties.WorkflowListMessage | MiniOrangeI/WebSocketManager.swift:348-358 | an app_graph/list message replaces the dashboard by exactly its workflow items |
| ConnectionProperties.DeviceListMessage | MiniOrangeI/WebSocketManager.swift:359-366 | a device_list message replaces the published list by exactly its devices |
| ConnectionProperties.StartStreamSetsViewer | MiniOrangeI/WebSocketManager.swift:371-376 | start_stream with a viewer_sn makes it the current viewer |
| ConnectionProperties.WithoutTokenAppend | MiniOrangeI/WebSocketManager.swift:131 | token removal works item by item |
| ConnectionProperties.WithoutTokenIdempotent | MiniOrangeI/WebSocketManager.swift:131 | removing token items twice is removing them once |
| ConnectionProperties.WithTokenIdempotent | MiniOrangeI/WebSocketManager.swift:128-135 | rewriting an already rewritten query changes nothing, so tokens never accumulate |
| HostRace.FirstAnswer | MiniOrangeI/WebSocketManager.swift:74-80 | the result is the first position in completion order whose probe answered, or none if none did |
| HostRace.Race | MiniOrangeI/WebSocketManager.swift:60-85 | a single candidate is returned unprobed; otherwise nothing iff no probe answered (so nothing for an empty list), else the first answering candidate in completion order; a result is always a candidate |
| HostRace.FastestAnswerWins | MiniOrangeI/WebSocketManager.swift:74-80 | the candidate whose probe answered first wins |
| ServerManager.FindSame | MiniOrangeI/ServerManager.swift:44 | the first entry equal to the configuration (same URL), or none if no entry is |
| ServerManager.AddServer | MiniOrangeI/ServerManager.swift:43-52 | existing iff some entry has the URL, and then the saved entry is returned with nothing changed; otherwise appended and returned as new; unique URLs are preserved |
| ServerManager.AddServerIdempotent | MiniOrangeI/ServerManager.swift:43-52 | adding the same configuration twice changes nothing the second time |
| ServerManager.SameUrlIsSameServer | MiniOrangeI/ServerManager.swift:9-11 | configurations with equal URLs are the same server whatever their ids and names |
| ServerManager.FirstWithId | MiniOrangeI/ServerManager.swift:55 | the first entry with the id, or none if no entry has it |
| ServerManager.UpdateServerName | MiniOrangeI/ServerManager.swift:54-62 | only the first entry with the id is renamed, mirrored to the current server when ids match; URLs and ids never change; no entry, no change |
| ServerManager.Kept | MiniOrangeI/ServerManager.swift:71 | the indices not removed, increasing, each one once |
| ServerManager.KeptCount | MiniOrangeI/ServerManager.swift:71 | exactly as many indices go as there are offsets |
| ServerManager.RemoveAt | MiniOrangeI/ServerManager.swift:71 | the kept entries in their original order, \|offsets\| fewer; unique URLs are preserved |
| ServerManager.RemoveServer | MiniOrangeI/ServerManager.swift:64-73 | entries removed as RemoveAt; a disconnect is requested iff a removed entry has the current server's id |
| ServerManager.RemovingCurrentDisconnects | MiniOrangeI/ServerManager.swift:64-73 | removing the current server's entry requests the disconnect and shortens the list by one |
| ServerManager.WithoutId | MiniOrangeI/ServerManager.swift:86 | no entry with the id remains, every other entry does, and nothing new appears |
| ServerManager.WithoutIdAppend | MiniOrangeI/ServerManager.swift:86 | removal works entry by entry, so the kept entries keep their order and their number |
| ServerManager.WithoutIdSingle | MiniOrangeI/ServerManager.swift:86 | a single entry is dropped iff it has the id |
| ServerManager.DisconnectCurrent | MiniOrangeI/ServerManager.swift:84-89 | no current server, no change; otherwise entries with its id removed and the disconnect requested |
| ServerManager.CompleteDisconnect | MiniOrangeI/ServerManager.swift:91-98 | only the current server is dropped, and the connection manager ends exactly as `disconnect` leaves it, the trailing clearState changing nothing more |
| ServerManager.SwitchTo | MiniOrangeI/ServerManager.swift:75-82 | the server becomes current and nothing else in the list state changes; the connection manager's lists and both flags are cleared and every other field, socket, slot, ping loop, viewer and logs included, is untouched |
| ServerManager.SwitchThenDisconnect | MiniOrangeI/ServerManager.swift:75-89 | switching to a server then disconnecting forgets exactly the entries with its id and requests the disconnect |
| DeviceList.RefreshIfConnected | MiniOrangeI/DeviceListView.swift:18-27 | one get_device_list request is sent iff connected, not offline, and a socket exists; nothing else changes |
| DeviceList.MyDevice | MiniOrangeI/DeviceListView.swift:34-36 | the first device with this client's serial number, or none iff no device has it |
| DeviceList.LexLessTransitive | MiniOrangeI/DeviceListView.swift:44 | string order on models is transitive |
| DeviceList.LexLessTotal | MiniOrangeI/DeviceListView.swift:44 | two different models are always ordered one way or the other |
| DeviceList.DeviceLessAsymmetric | MiniOrangeI/DeviceListView.swift:41-45 | the comparator never puts two devices each before the other |
| DeviceList.NotAfterTransitive | MiniOrangeI/DeviceListView.swift:41-45 | "not after" under the comparator is transitive, so it is a strict weak order |
| DeviceList.Insert | MiniOrangeI/DeviceListView.swift:41-45 | inserting into a sorted list gives a sorted list with that device added |
| DeviceList.Sort | MiniOrangeI/DeviceListView.swift:41-45 | the result is a permutation of the input, sorted by the comparator |
| DeviceList.OtherDevices | MiniOrangeI/DeviceListView.swift:40 | every device whose serial number is not the client's, with its multiplicity, and no other |
| DeviceList.RemoteDevices | MiniOrangeI/DeviceListView.swift:38-46 | a permutation of the devices that are not this client; online devices first; models ascending within each group |
| DeviceList.IconName | MiniOrangeI/DeviceListView.swift:107-114 | the icon is one of the five symbols |
| DeviceList.IconNameFollowsRules | MiniOrangeI/DeviceListView.swift:107-114 | the icon is that of the first keyword group, in priority order, with a keyword in the lowercased model, else "iphone" |
| DeviceList.MacbookWinIsDesktop | MiniOrangeI/DeviceListView.swift:109-110 | "macbook-win" gets the desktop icon: the earlier group wins |
| DeviceList.PlainModelIsPhone | MiniOrangeI/DeviceListView.swift:113 | a model without keywords gets the phone icon |
| DeviceList.LowerIdempotent | MiniOrangeI/DeviceListView.swift:108 | lowercasing twice is lowercasing once |
| DeviceList.IconIgnoresCase | MiniOrangeI/DeviceListView.swift:108 | the icon does not depend on letter case |

## Left out

- Transport I/O is not modelled:
  - WebSocket tasks, sends, pings and receive loops become `Event` values and the `sent`/`frames` logs;
  - the HTTP probe of `checkConnectivity` becomes the `answered` input of `HostRace.Race`;
  - `provisionDevice`, `sendTap`/`sendSwipe`, the binary `send(data:)` and the JSON serialisation failure path of `send(json:)` are left out.
- Concurrency is not modelled.
  - Task groups, the decode queue, main-actor hops and the three-second sleeps are atomic events in a sequential trace.
  - `ServerManager`'s deferred main-queue blocks are returned as a `disconnectRequested` flag, modelled by `ServerManager.CompleteDisconnect` when run.
  - The setup that `switchTo` defers is a `SetupRequested` event.
- VideoToolbox and CoreMedia are not modelled.
  - `CMVideoFormatDescriptionCreateFromH264ParameterSets` is the `configure` parameter.
  - Block and sample buffer creation are assumed to succeed, so each submitted sample is appended to the `submitted` log. The paths where they fail, timestamps and the display-immediately attachment are left out.
  - The compression session, ReplayKit capture, `CMBlockBufferGetDataPointer`'s failure and `SafeMemory` are left out.
- Floating point is not modelled: the tap/swipe coordinate scaling.
- JSON and URL parsing are not modelled.
  - Messages are an abstract `Json` value. Only integral numbers are represented, because `as? Int` only matches those.
  - A text that is not a JSON object is `TextReceived(None)`.
  - URL parsing is the `parsed` and `rebuilt` inputs of `Setup`. `setup`'s `ws://` prefixing is computed but never used by the code, so it is not modelled. Neither is `serverIP`, which always equals the server name.
- Persistence and token storage are not modelled: UserDefaults, `save`, `loadServers`.
- `handleAppBackground` and `handleAppForeground` are not modelled. Nothing registers them as observers, so they never run. The app's return to the foreground calls `setup(url:)` with the current server (MiniOrangeI/MiniOrangeIApp.swift:21-27), which is a `SetupRequested` event.
- Strings are modelled as sequences of characters. `lowercased()` is ASCII-only, and Swift's `String <` is lexicographic order on characters, without Unicode normalisation. The `sn` of a packet is already its UTF-8 bytes.
- DeviceList.Sort: Swift's `sorted(by:)` is not stable, and insertion sort is one of the orders it may produce. `DeviceList.RemoteDevices` states only what every such order satisfies: permutation, online first, models ascending within a group.
- DeviceList.IconName: its contract only says the result is one of five symbols. `IconNameFollowsRules` states the full rule.
- The `UInt32(naluLen)` trap in `enqueueFrame` is modelled as a precondition: units and the accumulator below 2^32 bytes. The `UInt8(snData.count)` trap in `sendPacket` is the precondition `|sn| <= 255`.
- ScreenRecorder.HandleEncodedFrame: the unchecked record copy is modelled by the precondition `WellFormedAvcc`. The behaviour on malformed encoder output, an out-of-bounds read, is not modelled.
- ServerManager.RemoveServer: offsets outside the list trap in the code and are excluded by a precondition. Persisting the list is not modelled.
- MediaRoundTrip.StreamRoundTrip: covers units below 0x7000_0000 bytes and free of `00 00 01`, which H.264 emulation prevention guarantees. Units containing start-code patterns are split by the decoder and are not covered.
- The SwiftUI views, the scanning UI and `GlobalOfflineModifier` are not part of this model.

## Findings

| source | as written | input that shows it | evidently intended | confidence | as-written member | corrected member |
|---|---|---|---|---|---|---|
| MiniOrangeI/WebSocketManager.swift:227-236 | `connect` and `disconnect` call `reconnectTask?.cancel()` but never set the field to nil, and a cancelled task skips `self.reconnectTask = nil`; `scheduleReconnect` then refuses to schedule because the field is not nil | connect, didOpen, didClose (a reconnect is scheduled), connect by hand before the timer fires (the task is cancelled), didOpen, didClose: no reconnect is scheduled, and none ever is | cancelling the reconnect task also frees the field, so every later failure schedules a reconnect | not executed | ConnectionProperties.ReconnectLostAfterCancel | ConnectionProperties.StepFreeingSlot |

=== FILE: common.dfy ===
/** Shared vocabulary of the model: bytes, optional values, big-endian
    length fields and the constants of the binary media wire format. */
module Common {

  /** One octet, as Swift's UInt8. */
  type byte = x: int | 0 <= x < 256

  /** The Some/None wrapper standing in for Swift optionals. */
  datatype Option<+T> = None | Some(value: T)

  /** 2^32: one more than the largest UInt32. */
  const TwoTo32: nat := 0x1_0000_0000

  /** Magic marker byte that opens every binary media packet. */
  const PacketMagic: byte := 0xAA

  /** Type tag the packetizer writes for a video unit. */
  const MediaPacketType: byte := 0x02

  /** The four-byte Annex B start code 00 00 00 01 (ITU-T H.264, section B.1). */
  const StartCode4: seq<byte> := [0, 0, 0, 1]

  /** Big-endian value of the four bytes b[i..i+4]. */
  function ReadBigEndian32(b: seq<byte>, i: nat): (n: nat)
    requires i + 4 <= |b|
    ensures n < TwoTo32
  {
    (b[i] as int) * 0x100_0000 + (b[i + 1] as int) * 0x1_0000 + (b[i + 2] as int) * 0x100 + (b[i + 3] as int)
  }

  /** The four-byte big-endian encoding of a UInt32. */
  function BigEndian32(n: nat): (r: seq<byte>)
    requires n < TwoTo32
    ensures |r| == 4
    ensures ReadBigEndian32(r, 0) == n
  {
    DigitsOf(n);
    [n / 0x100_0000, (n / 0x1_0000) % 0x100, (n / 0x100) % 0x100, n % 0x100]
  }

  /** The base-256 digits of a UInt32 recombine to it. */
  lemma DigitsOf(n: nat)
    requires n < TwoTo32
    ensures n / 0x100_0000 < 0x100
    ensures n == (n / 0x100_0000) * 0x100_0000 + ((n / 0x1_0000) % 0x100) * 0x1_0000
                 + ((n / 0x100) % 0x100) * 0x100 + n % 0x100
  {
    var d0, r0 := n / 0x100_0000, n % 0x100_0000;
    var d1, r1 := r0 / 0x1_0000, r0 % 0x1_0000;
    var d2, d3 := r1 / 0x100, r1 % 0x100;
    assert n == d0 * 0x100_0000 + r0;
    assert r0 == d1 * 0x1_0000 + r1;
    assert r1 == d2 * 0x100 + d3;
    assert n / 0x1_0000 == d0 * 0x100 + d1;
    assert (n / 0x1_0000) % 0x100 == d1;
    assert n / 0x100 == d0 * 0x1_0000 + d1 * 0x100 + d2;
    assert (n / 0x100) % 0x100 == d2;
    assert n % 0x100 == d3;
  }

  /** Encoding is also a left inverse of reading: four bytes are recovered from their value. */
  lemma BigEndian32OfRead(b: seq<byte>, i: nat)
    requires i + 4 <= |b|
    ensures BigEndian32(ReadBigEndian32(b, i)) == b[i..i + 4]
  {
    var n := ReadBigEndian32(b, i);
    var x0, x1, x2, x3 := b[i] as int, b[i + 1] as int, b[i + 2] as int, b[i + 3] as int;
    var low2 := x2 * 0x100 + x3;
    var low1 := x1 * 0x1_0000 + low2;
    assert 0 <= low2 < 0x1_0000 && 0 <= low1 < 0x100_0000;
    assert n == x0 * 0x100_0000 + low1;
    assert n / 0x100_0000 == x0;
    assert n == (x0 * 0x100 + x1) * 0x1_0000 + low2;
    assert n / 0x1_0000 == x0 * 0x100 + x1;
    assert (n / 0x1_0000) % 0x100 == x1;
    assert n == (x0 * 0x1_0000 + x1 * 0x100 + x2) * 0x100 + x3;
    assert n / 0x100 == x0 * 0x1_0000 + x1 * 0x100 + x2;
    assert (n / 0x100) % 0x100 == x2;
    assert n % 0x100 == x3;
  }

  /** The last element of a nonempty sequence. */
  function Last<T>(s: seq<T>): T
    requires |s| > 0
  {
    s[|s| - 1]
  }

  /** Concatenation of a sequence of byte strings. */
  function Flatten(ss: seq<seq<byte>>): (r: seq<byte>)
  {
    if |ss| == 0 then [] else ss[0] + Flatten(ss[1..])
  }

  lemma FlattenAppend(a: seq<seq<byte>>, b: seq<seq<byte>>)
    ensures Flatten(a + b) == Flatten(a) + Flatten(b)
  {
    if |a| == 0 {
      assert a + b == b;
    } else {
      assert (a + b)[1..] == a[1..] + b;
      FlattenAppend(a[1..], b);
    }
  }
}

=== FILE: connection_properties.dfy ===
/** Properties of the connection manager (MiniOrangeI/WebSocketManager.swift)
    that span several calls or events. */
module ConnectionProperties {
  import opened Common
  import opened Json
  import opened Models
  import opened WebSocketManager

  // ---------------------------------------------------------------------
  // Reconnect slot

  /** Once the reconnect task has been cancelled, no sequence of events
      empties the field again. */
  lemma {:induction false} CancelledIsPermanent(c: Conn, id: Identity, events: seq<Event>)
    requires c.reconnect.Cancelled?
    ensures Run(c, id, events).reconnect.Cancelled?
    decreases |events|
  {
    if |events| > 0 {
      CancelledIsPermanent(Step(c, id, events[0]), id, events[1..]);
    }
  }

  /** Events that happen to the manager without the user asking to connect. */
  predicate Automatic(e: Event) {
    e.ReconnectTimerFired? || e.DidClose? || e.ReceiveFailed? || e.PingFailed? ||
    e.HeartbeatTimerFired? || e.TextReceived? || e.DataReceived?
  }

  /** With the slot occupied by a cancelled task and no socket, nothing the
      network or the timers do ever opens a socket again. */
  lemma {:induction false} NoAutomaticReconnect(c: Conn, id: Identity, events: seq<Event>)
    requires c.reconnect.Cancelled? && c.socket.None?
    requires forall k :: 0 <= k < |events| ==> Automatic(events[k])
    ensures Run(c, id, events).socket.None? && Run(c, id, events).reconnect.Cancelled?
    decreases |events|
  {
    if |events| > 0 {
      var next := Step(c, id, events[0]);
      assert Automatic(events[0]);
      assert next.socket.None?;
      NoAutomaticReconnect(next, id, events[1..]);
    }
  }

  /** The trace behind the reconnect finding, as the code is written: the
      connection drops (a reconnect is scheduled), the user reconnects by
      hand before the timer fires (the task is cancelled but stays in the
      field), and the new connection drops too. No reconnect is scheduled
      for the second drop, and none ever will be. */
  lemma ReconnectLostAfterCancel(id: Identity, u: Url)
    ensures var trace := [ConnectRequested(u), DidOpen("1"), DidClose, ConnectRequested(u), DidOpen("2"), DidClose];
            var r := Run(Initial(), id, trace);
            r.lastURL == Some(u) && r.socket.None? && !r.isConnected && r.reconnect == Cancelled &&
            Step(r, id, ReconnectTimerFired) == r
  {
    var c1 := Step(Initial(), id, ConnectRequested(u));
    var c2 := Step(c1, id, DidOpen("1"));
    var c3 := Step(c2, id, DidClose);
    assert c3.reconnect == Pending(u);
    var c4 := Step(c3, id, ConnectRequested(u));
    assert c4.reconnect == Cancelled;
    var c5 := Step(c4, id, DidOpen("2"));
    var c6 := Step(c5, id, DidClose);
    var trace := [ConnectRequested(u), DidOpen("1"), DidClose, ConnectRequested(u), DidOpen("2"), DidClose];
    assert Run(c5, id, [DidClose]) == c6;
    assert Run(c4, id, [DidOpen("2"), DidClose]) == c6;
    assert Run(c3, id, [ConnectRequested(u), DidOpen("2"), DidClose]) == c6;
    assert Run(c2, id, [DidClose, ConnectRequested(u), DidOpen("2"), DidClose]) == c6;
    assert Run(c1, id, [DidOpen("1"), DidClose, ConnectRequested(u), DidOpen("2"), DidClose]) == c6;
  }

  /** The evidently intended behaviour: cancelling the reconnect task also
      empties the field (reconnectTask = nil after cancel()). Every event
      then behaves as in Step, except that a cancelled task never stays. */
  function StepFreeingSlot(c: Conn, id: Identity, e: Event): (r: Conn)
    requires !c.reconnect.Cancelled?
    ensures !r.reconnect.Cancelled?
    ensures SlotConsistent(c) ==> SlotConsistent(r)
    ensures Step(c, id, e).reconnect.Cancelled? ==> r.reconnect.NoTask?
    ensures r.(reconnect := NoTask) == Step(c, id, e).(reconnect := NoTask)
  {
    var s := Step(c, id, e);
    if s.reconnect.Cancelled? then s.(reconnect := NoTask) else s
  }

  /** A failure event: close, receive error or ping error. */
  predicate IsFailure(e: Event) {
    e.DidClose? || e.ReceiveFailed? || e.PingFailed?
  }

  /** With the slot freed on cancel, every failure while a URL is
      remembered leaves a reconnect pending for that URL. */
  lemma FreedSlotAlwaysRetries(c: Conn, id: Identity, e: Event)
    requires !c.reconnect.Cancelled? && SlotConsistent(c) && c.lastURL.Some? && IsFailure(e)
    ensures StepFreeingSlot(c, id, e).reconnect == Pending(c.lastURL.value)
  {
  }

  function RunFreeingSlot(c: Conn, id: Identity, events: seq<Event>): (r: Conn)
    requires !c.reconnect.Cancelled?
    ensures !r.reconnect.Cancelled?
    decreases |events|
  {
    if |events| == 0 then c else RunFreeingSlot(StepFreeingSlot(c, id, events[0]), id, events[1..])
  }

  /** The same trace as ReconnectLostAfterCancel under the corrected
      behaviour: the second drop schedules a reconnect, and the timer then
      reopens the socket. */
  lemma CorrectedTraceReconnects(id: Identity, u: Url)
    ensures var trace := [ConnectRequested(u), DidOpen("1"), DidClose, ConnectRequested(u), DidOpen("2"), DidClose];
            var r := RunFreeingSlot(Initial(), id, trace);
            r.reconnect == Pending(u) &&
            StepFreeingSlot(r, id, ReconnectTimerFired).socket == Some(u)
  {
    var c1 := StepFreeingSlot(Initial(), id, ConnectRequested(u));
    var c2 := StepFreeingSlot(c1, id, DidOpen("1"));
    var c3 := StepFreeingSlot(c2, id, DidClose);
    assert c3.reconnect == Pending(u);
    var c4 := StepFreeingSlot(c3, id, ConnectRequested(u));
    assert c4.reconnect == NoTask;
    var c5 := StepFreeingSlot(c4, id, DidOpen("2"));
    var c6 := StepFreeingSlot(c5, id, DidClose);
    assert c6.reconnect == Pending(u);
    var trace := [ConnectRequested(u), DidOpen("1"), DidClose, ConnectRequested(u), DidOpen("2"), DidClose];
    assert RunFreeingSlot(c5, id, [DidClose]) == c6;
    assert RunFreeingSlot(c4, id, [DidOpen("2"), DidClose]) == c6;
    assert RunFreeingSlot(c3, id, [ConnectRequested(u), DidOpen("2"), DidClose]) == c6;
    assert RunFreeingSlot(c2, id, [DidClose, ConnectRequested(u), DidOpen("2"), DidClose]) == c6;
    assert RunFreeingSlot(c1, id, [DidOpen("1"), DidClose, ConnectRequested(u), DidOpen("2"), DidClose]) == c6;
  }

  // ---------------------------------------------------------------------
  // Disconnect

  /** internalDisconnect is idempotent: a second call finds nothing to tear down. */
  lemma InternalDisconnectIdempotent(c: Conn)
    ensures InternalDisconnect(InternalDisconnect(c)) == InternalDisconnect(c)
  {
  }

  /** Nothing remembered, nothing scheduled, no socket. */
  predicate Dormant(c: Conn) {
    c.lastURL.None? && !c.reconnect.Pending? && c.socket.None?
  }

  /** After disconnect, no event other than an explicit connect or setup
      opens a socket or schedules a reconnect: later failures find no URL. */
  lemma {:induction false} DisconnectIsFinal(c: Conn, id: Identity, events: seq<Event>)
    requires forall k :: 0 <= k < |events| ==> !events[k].ConnectRequested? && !events[k].SetupRequested?
    ensures Dormant(Run(Disconnect(c), id, events))
  {
    DormantStays(Disconnect(c), id, events);
  }

  lemma {:induction false} DormantStays(c: Conn, id: Identity, events: seq<Event>)
    requires Dormant(c)
    requires forall k :: 0 <= k < |events| ==> !events[k].ConnectRequested? && !events[k].SetupRequested?
    ensures Dormant(Run(c, id, events))
    decreases |events|
  {
    if |events| > 0 {
      DormantStep(c, id, events[0]);
      DormantStays(Step(c, id, events[0]), id, events[1..]);
    }
  }

  /** One event other than connect or setup keeps the manager dormant. */
  lemma DormantStep(c: Conn, id: Identity, e: Event)
    requires Dormant(c) && !e.ConnectRequested? && !e.SetupRequested?
    ensures Dormant(Step(c, id, e))
  {
    match e
    case TextReceived(m) =>
      if m.Some? {
        assert Step(c, id, e) == HandleMessage(c, m.value);
      }
    case _ =>
  }

  // ---------------------------------------------------------------------
  // Opening

  /** connect followed by didOpen: connected, no longer connecting, and
      exactly one message sent, a registration of this client. */
  lemma ConnectThenOpen(c: Conn, id: Identity, u: Url, reqId: string)
    ensures var r := Opened(Connect(c, u), id, reqId);
            r.isConnected && !r.isConnecting && r.lastURL == Some(u) &&
            |r.sent| == |c.sent| + 1 && r.sent[..|c.sent|] == c.sent &&
            IsRegistration(Last(r.sent), id)
  {
    var m := RegisterMessage(id, reqId);
    var d := m.fields["data"].fields;
    assert StringField(d, "type") == Some("ios");
    var r := Opened(Connect(c, u), id, reqId);
    assert r.sent == c.sent + [m];
  }

  /** If the ping loop's first round comes before didOpen, the loop ends,
      and the connection that opens afterwards sends no heartbeats. */
  lemma HeartbeatLostBeforeOpen(c: Conn, id: Identity, u: Url, reqId: string)
    requires !c.isConnected
    ensures var r := Opened(HeartbeatDue(Connect(c, u), id), id, reqId);
            r.isConnected && !r.pingActive && HeartbeatDue(r, id) == r
  {
  }

  // ---------------------------------------------------------------------
  // Control messages

  /** A message with status code 503. */
  function Offline503(): Json {
    JObject(map["code" := JInt(503)])
  }

  /** The server's answer to a successful registration. */
  function Registered200(): Json {
    JObject(map["code" := JInt(200), "action" := JString("register")])
  }

  /** Code 503 sets the offline flag and returns before any dispatch, even
      when the message carries an action. */
  lemma OfflineStopsDispatch(c: Conn, o: map<string, Json>)
    requires IntField(o, "code") == Some(503)
    ensures HandleMessage(c, JObject(o)) == c.(offline := true)
  {
  }

  /** 503 followed by a successful registration leaves the flag clear. */
  lemma RegistrationClearsOffline(c: Conn)
    ensures HandleMessage(c, Offline503()).offline
    ensures !HandleMessage(HandleMessage(c, Offline503()), Registered200()).offline
  {
    assert IntField(Offline503().fields, "code") == Some(503);
    assert IntField(Registered200().fields, "code") == Some(200);
    assert StringField(Registered200().fields, "action") == Some("register");
  }

  /** An object message without a string action (and not 503) changes nothing. */
  lemma NoActionNoEffect(c: Conn, o: map<string, Json>)
    requires IntField(o, "code") != Some(503) && StringField(o, "action").None?
    ensures HandleMessage(c, JObject(o)) == c
  {
  }

  /** The field map a device list entry is encoded as. */
  function EncodeDevice(d: Device): map<string, Json> {
    map["sn" := JString(d.sn), "model" := JString(d.model), "status" := JString(d.status)]
  }

  function EncodeDevices(ds: seq<Device>): (r: seq<map<string, Json>>)
    ensures |r| == |ds|
  {
    if |ds| == 0 then [] else [EncodeDevice(ds[0])] + EncodeDevices(ds[1..])
  }

  /** Decoding recovers every encoded device, in order. */
  lemma {:induction false} DevicesRoundTrip(ds: seq<Device>)
    ensures DecodeDevices(EncodeDevices(ds)) == ds
  {
    if |ds| > 0 {
      var e := EncodeDevice(ds[0]);
      assert StringField(e, "sn") == Some(ds[0].sn);
      assert StringField(e, "model") == Some(ds[0].model);
      assert StringField(e, "status") == Some(ds[0].status);
      assert EncodeDevices(ds)[1..] == EncodeDevices(ds[1..]);
      DevicesRoundTrip(ds[1..]);
    }
  }

  /** The decoder works entry by entry: decoding a concatenation is the
      concatenation of the decodings. */
  lemma {:induction false} DecodeDevicesAppend(a: seq<map<string, Json>>, b: seq<map<string, Json>>)
    ensures DecodeDevices(a + b) == DecodeDevices(a) + DecodeDevices(b)
  {
    if |a| == 0 {
      assert a + b == b;
    } else {
      assert (a + b)[1..] == a[1..] + b;
      DecodeDevicesAppend(a[1..], b);
    }
  }

  /** One device per entry iff every entry is well formed; none when no entry is. */
  lemma {:induction false} DecodeDevicesCount(items: seq<map<string, Json>>)
    ensures |DecodeDevices(items)| == |items| <==> forall k :: 0 <= k < |items| ==> DeviceOf(items[k]).Some?
    ensures (forall k :: 0 <= k < |items| ==> DeviceOf(items[k]).None?) ==> DecodeDevices(items) == []
  {
    if |items| > 0 {
      DecodeDevicesCount(items[1..]);
      assert forall k :: 1 <= k < |items| ==> items[1..][k - 1] == items[k];
    }
  }

  /** A single entry, whatever other keys it carries: the device read from
      its string sn, model and status (or "offline"), or nothing. With
      DecodeDevicesAppend this fixes the decoding of every list. */
  lemma DecodeDevicesSingle(o: map<string, Json>)
    ensures var sn := StringField(o, "sn");
            var model := StringField(o, "model");
            var status := StringField(o, "status");
            DecodeDevices([o]) ==
              if sn.Some? && model.Some? then [Device(sn.value, model.value, if status.Some? then status.value else "offline")]
              else []
  {
    assert [o][1..] == [];
  }

  /** An entry with string sn and model but no string status is an offline device. */
  lemma StatusDefaultsOffline(o: map<string, Json>)
    requires StringField(o, "sn").Some? && StringField(o, "model").Some? && StringField(o, "status").None?
    ensures DecodeDevices([o]) == [Device(StringField(o, "sn").value, StringField(o, "model").value, "offline")]
  {
  }

  /** The field map a workflow entry is encoded as; an absent color is an absent key. */
  function EncodeWorkflow(w: WorkflowItem): map<string, Json> {
    var base := map["id" := JString(w.id), "name" := JString(w.name), "icon" := JString(w.icon)];
    if w.color.Some? then base["color" := JString(w.color.value)] else base
  }

  function EncodeWorkflows(ws: seq<WorkflowItem>): (r: seq<map<string, Json>>)
    ensures |r| == |ws|
  {
    if |ws| == 0 then [] else [EncodeWorkflow(ws[0])] + EncodeWorkflows(ws[1..])
  }

  lemma {:induction false} WorkflowsRoundTrip(ws: seq<WorkflowItem>)
    ensures DecodeWorkflows(EncodeWorkflows(ws)) == ws
  {
    if |ws| > 0 {
      var w := ws[0];
      var e := EncodeWorkflow(w);
      assert StringField(e, "id") == Some(w.id);
      assert StringField(e, "name") == Some(w.name);
      assert StringField(e, "icon") == Some(w.icon);
      assert StringField(e, "color") == w.color;
      assert EncodeWorkflows(ws)[1..] == EncodeWorkflows(ws[1..]);
      WorkflowsRoundTrip(ws[1..]);
    }
  }

  /** The workflow decoder works entry by entry, too. */
  lemma {:induction false} DecodeWorkflowsAppend(a: seq<map<string, Json>>, b: seq<map<string, Json>>)
    ensures DecodeWorkflows(a + b) == DecodeWorkflows(a) + DecodeWorkflows(b)
  {
    if |a| == 0 {
      assert a + b == b;
    } else {
      assert (a + b)[1..] == a[1..] + b;
      DecodeWorkflowsAppend(a[1..], b);
    }
  }

  /** One item per entry iff every entry is well formed; none when no entry is. */
  lemma {:induction false} DecodeWorkflowsCount(items: seq<map<string, Json>>)
    ensures |DecodeWorkflows(items)| == |items| <==> forall k :: 0 <= k < |items| ==> WorkflowOf(items[k]).Some?
    ensures (forall k :: 0 <= k < |items| ==> WorkflowOf(items[k]).None?) ==> DecodeWorkflows(items) == []
  {
    if |items| > 0 {
      DecodeWorkflowsCount(items[1..]);
      assert forall k :: 1 <= k < |items| ==> items[1..][k - 1] == items[k];
    }
  }

  /** A single entry, whatever other keys it carries: the item read from its
      string id, name and icon, with the color when it is a string, or
      nothing. With DecodeWorkflowsAppend this fixes every list. */
  lemma DecodeWorkflowsSingle(o: map<string, Json>)
    ensures var id := StringField(o, "id");
            var name := StringField(o, "name");
            var icon := StringField(o, "icon");
            DecodeWorkflows([o]) ==
              if id.Some? && name.Some? && icon.Some? then [WorkflowItem(id.value, name.value, icon.value, StringField(o, "color"))]
              else []
  {
    assert [o][1..] == [];
  }

  /** An app_graph/list message replaces the dashboard by the decoded entries. */
  lemma WorkflowListMessage(c: Conn, ws: seq<WorkflowItem>)
    ensures var items := EncodeWorkflows(ws);
            var m := JObject(map["action" := JString("app_graph/list"),
                                 "data" := JArray(seq(|items|, k requires 0 <= k < |items| => JObject(items[k])))]);
            HandleMessage(c, m) == c.(workflows := ws)
  {
    var items := EncodeWorkflows(ws);
    var arr := seq(|items|, k requires 0 <= k < |items| => JObject(items[k]));
    var o := map["action" := JString("app_graph/list"), "data" := JArray(arr)];
    ArrayOfObjects(o, "data", items);
    assert StringField(o, "action") == Some("app_graph/list");
    assert IntField(o, "code").None?;
    WorkflowsRoundTrip(ws);
  }

  /** A device_list message replaces the published list by the decoded entries. */
  lemma DeviceListMessage(c: Conn, ds: seq<Device>)
    ensures var items := EncodeDevices(ds);
            var m := JObject(map["action" := JString("device_list"),
                                 "data" := JArray(seq(|items|, k requires 0 <= k < |items| => JObject(items[k])))]);
            HandleMessage(c, m) == c.(devices := ds)
  {
    var items := EncodeDevices(ds);
    var arr := seq(|items|, k requires 0 <= k < |items| => JObject(items[k]));
    var o := map["action" := JString("device_list"), "data" := JArray(arr)];
    ArrayOfObjects(o, "data", items);
    assert StringField(o, "action") == Some("device_list");
    assert IntField(o, "code").None?;
    DevicesRoundTrip(ds);
  }

  /** An array of objects is read back as the list of their field maps. */
  lemma ArrayOfObjects(o: map<string, Json>, key: string, items: seq<map<string, Json>>)
    requires key in o && o[key] == JArray(seq(|items|, k requires 0 <= k < |items| => JObject(items[k])))
    ensures ObjectListField(o, key) == Some(items)
  {
    var arr := o[key].items;
    assert AllObjects(arr);
    assert seq(|arr|, k requires 0 <= k < |arr| => arr[k].fields) == items;
  }

  /** start_stream with a string viewer_sn makes that viewer current. */
  lemma StartStreamSetsViewer(c: Conn, viewer: string)
    ensures var m := JObject(map["action" := JString("start_stream"),
                                 "data" := JObject(map["viewer_sn" := JString(viewer)])]);
            HandleMessage(c, m).currentViewerSN == Some(viewer)
  {
    var o := map["action" := JString("start_stream"), "data" := JObject(map["viewer_sn" := JString(viewer)])];
    assert StringField(o, "action") == Some("start_stream");
    assert ObjectField(o, "data") == Some(map["viewer_sn" := JString(viewer)]);
  }

  // ---------------------------------------------------------------------
  // setup's token handling

  lemma {:induction false} WithoutTokenAppend(a: seq<QueryItem>, b: seq<QueryItem>)
    ensures WithoutToken(a + b) == WithoutToken(a) + WithoutToken(b)
  {
    if |a| == 0 {
      assert a + b == b;
    } else {
      assert (a + b)[1..] == a[1..] + b;
      WithoutTokenAppend(a[1..], b);
    }
  }

  lemma {:induction false} WithoutTokenIdempotent(a: seq<QueryItem>)
    ensures WithoutToken(WithoutToken(a)) == WithoutToken(a)
  {
    if |a| > 0 {
      WithoutTokenIdempotent(a[1..]);
      if a[0].name != "token" {
        assert WithoutToken(a) == [a[0]] + WithoutToken(a[1..]);
        WithoutTokenAppend([a[0]], WithoutToken(a[1..]));
      }
    }
  }

  /** Rewriting an already rewritten query changes nothing: setup never
      accumulates tokens, and a stale token is always replaced. */
  lemma WithTokenIdempotent(items: seq<QueryItem>, token: string)
    ensures WithToken(WithToken(items, token), token) == WithToken(items, token)
  {
    WithoutTokenAppend(WithoutToken(items), [QueryItem("token", token)]);
    WithoutTokenIdempotent(items);
  }
}

=== FILE: device_list.dfy ===
/** The derivations of MiniOrangeI/DeviceListView.swift: this client's own
    entry, the ordered list of the other devices, the icon chosen for a
    device model, and the one-second polling gate. */
module DeviceList {
  import opened Common
  import opened Json
  import opened Models
  import opened WebSocketManager

  // ---------------------------------------------------------------------
  // Polling

  /** The message fetchDevices sends. */
  function DeviceListRequest(): Json {
    JObject(map["action" := JString("get_device_list")])
  }

  /** refreshIfConnected: ask for the list only while connected and not
      reported offline by the cluster. */
  function RefreshIfConnected(c: Conn): (r: Conn)
    ensures |r.sent| == |c.sent| + 1 <==> c.isConnected && !c.offline && c.socket.Some?
    ensures |r.sent| > |c.sent| ==> r.sent == c.sent + [DeviceListRequest()]
    ensures r.(sent := c.sent) == c
  {
    if c.isConnected && !c.offline then Send(c, DeviceListRequest()) else c
  }

  // ---------------------------------------------------------------------
  // This client

  /** myDevice: the first device whose serial number is this client's. */
  function MyDevice(devices: seq<Device>, clientSN: string): (r: Option<Device>)
    ensures r.None? <==> forall k :: 0 <= k < |devices| ==> devices[k].sn != clientSN
    ensures r.Some? ==> exists k :: 0 <= k < |devices| && devices[k] == r.value && r.value.sn == clientSN &&
                                    forall j :: 0 <= j < k ==> devices[j].sn != clientSN
  {
    if |devices| == 0 then None
    else if devices[0].sn == clientSN then Some(devices[0])
    else
      var rest := MyDevice(devices[1..], clientSN);
      assert rest.Some? ==> exists k :: 0 <= k < |devices| && devices[k] == rest.value &&
                                        forall j :: 0 <= j < k ==> devices[j].sn != clientSN by {
        if rest.Some? {
          var k :| 0 <= k < |devices[1..]| && devices[1..][k] == rest.value &&
                   forall j :: 0 <= j < k ==> devices[1..][j].sn != clientSN;
          assert devices[k + 1] == rest.value;
          assert forall j :: 1 <= j < k + 1 ==> devices[j].sn == devices[1..][j - 1].sn;
        }
      }
      rest
  }

  // ---------------------------------------------------------------------
  // Ordering of the other devices

  /** Swift's String `<`, modelled as lexicographic order on characters. */
  predicate LexLess(a: string, b: string)
    decreases |a|
  {
    |b| > 0 && (|a| == 0 || a[0] < b[0] || (a[0] == b[0] && LexLess(a[1..], b[1..])))
  }

  lemma {:induction false} LexLessIrreflexive(a: string)
    ensures !LexLess(a, a)
    decreases |a|
  {
    if |a| > 0 {
      LexLessIrreflexive(a[1..]);
    }
  }

  lemma {:induction false} LexLessTransitive(a: string, b: string, c: string)
    requires LexLess(a, b) && LexLess(b, c)
    ensures LexLess(a, c)
    decreases |a|
  {
    if |a| > 0 && a[0] == b[0] && b[0] == c[0] {
      LexLessTransitive(a[1..], b[1..], c[1..]);
    }
  }

  lemma {:induction false} LexLessTotal(a: string, b: string)
    ensures a == b || LexLess(a, b) || LexLess(b, a)
    decreases |a|
  {
    if |a| > 0 && |b| > 0 && a[0] == b[0] {
      LexLessTotal(a[1..], b[1..]);
      if a[1..] == b[1..] {
        assert a == [a[0]] + a[1..] && b == [b[0]] + b[1..];
      }
    }
  }

  predicate Online(d: Device) {
    d.status == "online"
  }

  /** The comparator of remoteDevices: online devices first, then by model. */
  predicate DeviceLess(d1: Device, d2: Device) {
    if Online(d1) && !Online(d2) then true
    else if !Online(d1) && Online(d2) then false
    else LexLess(d1.model, d2.model)
  }

  lemma DeviceLessAsymmetric(a: Device, b: Device)
    requires DeviceLess(a, b)
    ensures !DeviceLess(b, a)
  {
    if Online(a) == Online(b) && LexLess(b.model, a.model) {
      LexLessTransitive(a.model, b.model, a.model);
      LexLessIrreflexive(a.model);
    }
  }

  /** The comparator is a strict weak order: "not after" is transitive. */
  lemma NotAfterTransitive(a: Device, b: Device, c: Device)
    requires !DeviceLess(b, a) && !DeviceLess(c, b)
    ensures !DeviceLess(c, a)
  {
    if Online(a) == Online(b) && Online(b) == Online(c) && LexLess(c.model, a.model) {
      LexLessTotal(a.model, b.model);
      LexLessTotal(b.model, c.model);
      if LexLess(a.model, b.model) {
        LexLessTransitive(c.model, a.model, b.model);
        LexLessIrreflexive(b.model);
        if b.model != c.model {
          LexLessTransitive(b.model, c.model, b.model);
        }
      } else if LexLess(b.model, c.model) {
        LexLessTransitive(b.model, c.model, a.model);
        LexLessIrreflexive(a.model);
        if a.model != b.model {
          LexLessTransitive(a.model, b.model, a.model);
        }
      } else {
        LexLessIrreflexive(a.model);
      }
    }
  }

  /** Ordered by the comparator: no device is strictly before an earlier one. */
  predicate SortedByComparator(s: seq<Device>) {
    forall i, j :: 0 <= i < j < |s| ==> !DeviceLess(s[j], s[i])
  }

  /** Insert a device before the first one not strictly before it. */
  function Insert(d: Device, s: seq<Device>): (r: seq<Device>)
    requires SortedByComparator(s)
    ensures multiset(r) == multiset(s) + multiset{d}
    ensures SortedByComparator(r)
  {
    if |s| == 0 then [d]
    else if !DeviceLess(s[0], d) then
      InsertFront(d, s);
      [d] + s
    else
      var rest := Insert(d, s[1..]);
      InsertBehind(d, s, rest);
      [s[0]] + rest
  }

  /** A device not after the head of a sorted list is not after any of it. */
  lemma InsertFront(d: Device, s: seq<Device>)
    requires SortedByComparator(s) && |s| > 0 && !DeviceLess(s[0], d)
    ensures SortedByComparator([d] + s)
  {
    var r := [d] + s;
    forall j | 0 <= j < |s|
      ensures !DeviceLess(s[j], d)
    {
      if j > 0 {
        NotAfterTransitive(d, s[0], s[j]);
      }
    }
    assert forall i :: 1 <= i < |r| ==> r[i] == s[i - 1];
  }

  /** The head of a sorted list, strictly before d, stays in front of d
      inserted into the rest. */
  lemma InsertBehind(d: Device, s: seq<Device>, rest: seq<Device>)
    requires SortedByComparator(s) && |s| > 0 && DeviceLess(s[0], d)
    requires multiset(rest) == multiset(s[1..]) + multiset{d} && SortedByComparator(rest)
    ensures multiset([s[0]] + rest) == multiset(s) + multiset{d}
    ensures SortedByComparator([s[0]] + rest)
  {
    assert s == [s[0]] + s[1..];
    var r := [s[0]] + rest;
    forall j | 1 <= j < |r|
      ensures !DeviceLess(r[j], s[0])
    {
      assert r[j] == rest[j - 1];
      assert r[j] in multiset(rest);
      if r[j] != d {
        assert r[j] in multiset(s[1..]);
        var k :| 0 <= k < |s[1..]| && s[1..][k] == r[j];
        assert s[k + 1] == r[j];
      } else {
        DeviceLessAsymmetric(s[0], d);
      }
    }
    assert forall i, j :: 1 <= i < j < |r| ==> r[i] == rest[i - 1] && r[j] == rest[j - 1];
  }

  /** sorted(by:) with the remoteDevices comparator. Swift's sort is not
      stable; insertion sort fixes one of the orders it may produce, and
      every property below holds for all of them. */
  function Sort(s: seq<Device>): (r: seq<Device>)
    ensures multiset(r) == multiset(s)
    ensures SortedByComparator(r)
  {
    if |s| == 0 then []
    else
      assert s == [s[0]] + s[1..];
      Insert(s[0], Sort(s[1..]))
  }

  /** filter: the devices that are not this client, in order. */
  function OtherDevices(devices: seq<Device>, clientSN: string): (r: seq<Device>)
    ensures forall x :: x in r ==> x.sn != clientSN
    ensures forall x :: multiset(r)[x] == if x.sn != clientSN then multiset(devices)[x] else 0
  {
    if |devices| == 0 then []
    else
      assert devices == [devices[0]] + devices[1..];
      assert multiset(devices) == multiset{devices[0]} + multiset(devices[1..]);
      var rest := OtherDevices(devices[1..], clientSN);
      if devices[0].sn == clientSN then rest else [devices[0]] + rest
  }

  /** remoteDevices: every other device, online ones first, each group by model. */
  function RemoteDevices(devices: seq<Device>, clientSN: string): (r: seq<Device>)
    ensures forall x :: multiset(r)[x] == if x.sn != clientSN then multiset(devices)[x] else 0
    ensures forall k :: 0 <= k < |r| ==> r[k].sn != clientSN
    ensures forall i, j :: 0 <= i < j < |r| && Online(r[j]) ==> Online(r[i])
    ensures forall i, j :: 0 <= i < j < |r| && Online(r[i]) == Online(r[j]) ==> !LexLess(r[j].model, r[i].model)
  {
    var others := OtherDevices(devices, clientSN);
    var r := Sort(others);
    assert forall k :: 0 <= k < |r| ==> r[k] in multiset(others);
    r
  }

  // ---------------------------------------------------------------------
  // Icons

  /** ASCII lowercasing; other characters are left alone. */
  function Lower(s: string): (r: string)
    ensures |r| == |s|
    ensures forall k :: 0 <= k < |s| ==> r[k] == LowerChar(s[k])
  {
    seq(|s|, k requires 0 <= k < |s| => LowerChar(s[k]))
  }

  function LowerChar(ch: char): char {
    if 'A' <= ch <= 'Z' then (ch as int + 32) as char else ch
  }

  /** `needle` occurs in `s` starting at offset i. */
  predicate OccursAt(s: string, needle: string, i: nat) {
    i + |needle| <= |s| && s[i .. i + |needle|] == needle
  }

  /** String.contains: `needle` occurs as a contiguous part of `s`. */
  predicate Contains(s: string, needle: string) {
    exists i: nat :: i <= |s| && OccursAt(s, needle, i)
  }

  /** Some needle of the list occurs in `s`. */
  predicate ContainsAny(s: string, needles: seq<string>) {
    |needles| > 0 && (Contains(s, needles[0]) || ContainsAny(s, needles[1..]))
  }

  /** The keyword groups iconName tests, most important first, with the
      symbol each group selects. */
  function IconRules(): seq<(seq<string>, string)> {
    [(["win", "pc", "desktop"], "desktopcomputer"),
     (["mac", "book"], "laptopcomputer"),
     (["ipad", "tablet"], "ipad"),
     (["android", "pixel", "galaxy"], "phone.connection")]
  }

  /** The symbol of the first rule, from `k` on, with a keyword in `m`. */
  function FirstRule(m: string, k: nat): (r: string)
    requires k <= |IconRules()|
    decreases |IconRules()| - k
  {
    if k == |IconRules()| then "iphone"
    else if ContainsAny(m, IconRules()[k].0) then IconRules()[k].1
    else FirstRule(m, k + 1)
  }

  /** RemoteDeviceRow.iconName: the lowercased model is tested against the
      keyword groups in order; a phone icon when none matches. */
  function IconName(model: string): (r: string)
    ensures r in {"desktopcomputer", "laptopcomputer", "ipad", "phone.connection", "iphone"}
  {
    var m := Lower(model);
    if Contains(m, "win") || Contains(m, "pc") || Contains(m, "desktop") then "desktopcomputer"
    else if Contains(m, "mac") || Contains(m, "book") then "laptopcomputer"
    else if Contains(m, "ipad") || Contains(m, "tablet") then "ipad"
    else if Contains(m, "android") || Contains(m, "pixel") || Contains(m, "galaxy") then "phone.connection"
    else "iphone"
  }

  /** iconName agrees with the rule table read first to last. */
  lemma IconNameFollowsRules(model: string)
    ensures IconName(model) == FirstRule(Lower(model), 0)
  {
    var m := Lower(model);
    var rules := IconRules();
    AnyOfThree(m, "win", "pc", "desktop");
    AnyOfTwo(m, "mac", "book");
    AnyOfTwo(m, "ipad", "tablet");
    AnyOfThree(m, "android", "pixel", "galaxy");
    assert rules[0].0 == ["win", "pc", "desktop"] && rules[1].0 == ["mac", "book"];
    assert rules[2].0 == ["ipad", "tablet"] && rules[3].0 == ["android", "pixel", "galaxy"];
  }

  lemma AnyOfTwo(m: string, a: string, b: string)
    ensures ContainsAny(m, [a, b]) == (Contains(m, a) || Contains(m, b))
  {
    assert [a, b][1..] == [b];
    assert [b][1..] == [];
    assert !ContainsAny(m, []);
    assert ContainsAny(m, [b]) == Contains(m, b);
  }

  lemma AnyOfThree(m: string, a: string, b: string, c: string)
    ensures ContainsAny(m, [a, b, c]) == (Contains(m, a) || Contains(m, b) || Contains(m, c))
  {
    assert [a, b, c][1..] == [b, c];
    AnyOfTwo(m, b, c);
  }

  /** The first group wins even when a later group also matches. */
  lemma MacbookWinIsDesktop()
    ensures IconName("macbook-win") == "desktopcomputer"
  {
    var m := Lower("macbook-win");
    assert m == "macbook-win";
    assert OccursAt(m, "win", 8);
  }

  /** A model with none of the keywords gets the phone icon. */
  lemma PlainModelIsPhone()
    ensures IconName("X") == "iphone"
  {
    var m := Lower("X");
    assert m == "x";
    assert !Contains(m, "win") && !Contains(m, "pc") && !Contains(m, "desktop") by {
      TooLong(m, "win"); TooLong(m, "pc"); TooLong(m, "desktop");
    }
    assert !Contains(m, "mac") && !Contains(m, "book") by {
      TooLong(m, "mac"); TooLong(m, "book");
    }
    assert !Contains(m, "ipad") && !Contains(m, "tablet") by {
      TooLong(m, "ipad"); TooLong(m, "tablet");
    }
    assert !Contains(m, "android") && !Contains(m, "pixel") && !Contains(m, "galaxy") by {
      TooLong(m, "android"); TooLong(m, "pixel"); TooLong(m, "galaxy");
    }
  }

  /** A needle longer than the text does not occur in it. */
  lemma TooLong(s: string, needle: string)
    requires |needle| > |s|
    ensures !Contains(s, needle)
  {
  }

  lemma {:induction false} LowerIdempotent(s: string)
    ensures Lower(Lower(s)) == Lower(s)
  {
    assert forall k :: 0 <= k < |s| ==> LowerChar(LowerChar(s[k])) == LowerChar(s[k]);
  }

  /** The icon does not depend on letter case. */
  lemma IconIgnoresCase(model: string)
    ensures IconName(Lower(model)) == IconName(model)
  {
    LowerIdempotent(model);
  }
}

=== FILE: h264_decoder.dfy ===
/** The receive side of the media path (MiniOrangeI/H264Decoder.swift):
    strip the binary packet header, accumulate the payload, cut the
    accumulated Annex B byte stream at its start codes, and hand each unit
    to the decode-session controller, which caches the parameter sets,
    builds the format description once and submits length-prefixed
    picture units to the platform decoder. */
module H264Decoder {
  import opened Common

  /** An accumulator with no start code is dropped once it exceeds this size. */
  const MaxBufferWithoutStartCode: nat := 500_000

  /** nal_unit_type values the controller reacts to (ITU-T H.264, section 7.4.1, Table 7-1). */
  const NalNonIdrSlice: nat := 1
  const NalIdrSlice: nat := 5
  const NalSps: nat := 7
  const NalPps: nat := 8

  /** The format description built by the platform from one SPS and one PPS. */
  datatype FormatDescription = FormatDescription(sps: seq<byte>, pps: seq<byte>)

  /** One sample handed to the platform decoder: its format and its bytes. */
  datatype Sample = Sample(format: FormatDescription, data: seq<byte>)

  /** The decoder's state: the accumulator, the cached parameter sets, the
      format description, and the log of samples delivered so far. */
  datatype Decoder = Decoder(
    buffer: seq<byte>,
    sps: Option<seq<byte>>,
    pps: Option<seq<byte>>,
    format: Option<FormatDescription>,
    submitted: seq<Sample>)

  /** The platform call that builds a format description from an SPS and a
      PPS; true when it reports success. */
  type Configure = (seq<byte>, seq<byte>) -> bool

  /** The state of a newly created decoder. */
  function Initial(): (d: Decoder)
    ensures d.buffer == [] && d.sps.None? && d.pps.None? && d.format.None? && d.submitted == []
  {
    Decoder([], None, None, None, [])
  }

  // ---------------------------------------------------------------------
  // Packet header

  /** The payload of a binary packet [0xAA][type][snLen][sn...][payload],
      or None when the packet is dropped. The type byte is not inspected. */
  function PacketPayload(data: seq<byte>): (r: Option<seq<byte>>)
    ensures r.Some? <==> |data| > 3 && data[0] == PacketMagic && |data| > 3 + data[2] as int
    ensures r.Some? ==> |r.value| > 0 && data == data[..3 + data[2] as int] + r.value
  {
    if |data| > 3 && data[0] == PacketMagic then
      var headerSize := 3 + data[2] as int;
      if |data| > headerSize then Some(data[headerSize..]) else None
    else None
  }

  // ---------------------------------------------------------------------
  // Start-code scan

  /** A start code detected by the scan: where it begins and how long it is. */
  datatype StartCode = StartCode(pos: nat, len: nat)

  /** The start code the scan recognises at offset i: 3 for 00 00 01,
      4 for 00 00 00 01, 0 for none. Only offsets with i + 3 < |buf| are looked at. */
  function StartCodeLenAt(buf: seq<byte>, i: nat): (n: nat)
    requires i + 3 < |buf|
    ensures n == 0 || n == 3 || n == 4
    ensures n == 3 <==> buf[i] == 0 && buf[i + 1] == 0 && buf[i + 2] == 1
    ensures n == 4 <==> buf[i] == 0 && buf[i + 1] == 0 && buf[i + 2] == 0 && buf[i + 3] == 1
  {
    if buf[i] == 0 && buf[i + 1] == 0 then
      if buf[i + 2] == 1 then 3
      else if i + 3 < |buf| && buf[i + 2] == 0 && buf[i + 3] == 1 then 4
      else 0
    else 0
  }

  /** c is a start code of buf found at a scanned offset. */
  predicate Detected(buf: seq<byte>, c: StartCode) {
    c.pos + 3 < |buf| && c.len > 0 && StartCodeLenAt(buf, c.pos) == c.len
  }

  /** No scanned offset in [lo, hi) holds a start code. */
  predicate NoStartCodeIn(buf: seq<byte>, lo: nat, hi: nat) {
    forall p :: lo <= p < hi && p + 3 < |buf| ==> StartCodeLenAt(buf, p) == 0
  }

  /** Detected, non-overlapping, in increasing order. */
  predicate WellSpaced(buf: seq<byte>, codes: seq<StartCode>) {
    (forall k :: 0 <= k < |codes| ==> Detected(buf, codes[k])) &&
    (forall k :: 0 <= k < |codes| - 1 ==> codes[k].pos + codes[k].len <= codes[k + 1].pos)
  }

  /** No start code lies strictly between two consecutive codes of the list. */
  predicate NoStartCodeBetween(buf: seq<byte>, codes: seq<StartCode>) {
    forall k :: 0 <= k < |codes| - 1 ==> NoStartCodeIn(buf, codes[k].pos + codes[k].len, codes[k + 1].pos)
  }

  /** codes is the greedy left-to-right parse of buf from offset `from`:
      every code is genuine, they do not overlap, and no start code sits
      before the first one, between two of them, or after the last one. */
  predicate GreedyParse(buf: seq<byte>, from: nat, codes: seq<StartCode>) {
    WellSpaced(buf, codes) &&
    (forall k :: 0 <= k < |codes| ==> from <= codes[k].pos) &&
    NoStartCodeIn(buf, from, if |codes| == 0 then |buf| else codes[0].pos) &&
    NoStartCodeBetween(buf, codes) &&
    (|codes| > 0 ==> NoStartCodeIn(buf, Last(codes).pos + Last(codes).len, |buf|))
  }

  /** The start codes the scan of extractNALUs detects from offset `from`
      on: the scan tests every offset below |buf| - 3 and jumps over each
      code it finds. */
  function Scan(buf: seq<byte>, from: nat): (codes: seq<StartCode>)
    decreases |buf| - from
    ensures GreedyParse(buf, from, codes)
  {
    if from + 3 >= |buf| then
      []
    else
      var n := StartCodeLenAt(buf, from);
      if n > 0 then
        var rest := Scan(buf, from + n);
        GreedyCons(buf, from, n, rest);
        [StartCode(from, n)] + rest
      else
        var rest := Scan(buf, from + 1);
        GreedySkip(buf, from, rest);
        rest
  }

  /** A code found at `from` extends a greedy parse of what follows it. */
  lemma GreedyCons(buf: seq<byte>, from: nat, n: nat, rest: seq<StartCode>)
    requires from + 3 < |buf| && n > 0 && StartCodeLenAt(buf, from) == n
    requires GreedyParse(buf, from + n, rest)
    ensures GreedyParse(buf, from, [StartCode(from, n)] + rest)
  {
    var codes := [StartCode(from, n)] + rest;
    assert forall k :: 1 <= k < |codes| ==> codes[k] == rest[k - 1];
    forall k | 0 <= k < |codes| - 1
      ensures NoStartCodeIn(buf, codes[k].pos + codes[k].len, codes[k + 1].pos)
    {
      if k > 0 {
        assert codes[k] == rest[k - 1] && codes[k + 1] == rest[k];
      }
    }
    if |rest| > 0 {
      assert Last(codes) == Last(rest);
    }
  }

  /** An offset without a code can be prepended to a greedy parse. */
  lemma GreedySkip(buf: seq<byte>, from: nat, rest: seq<StartCode>)
    requires from + 3 < |buf| && StartCodeLenAt(buf, from) == 0
    requires GreedyParse(buf, from + 1, rest)
    ensures GreedyParse(buf, from, rest)
  {
  }

  /** The units between consecutive start codes: unit k runs from the end
      of code k to the start of code k + 1. */
  function Units(buf: seq<byte>, codes: seq<StartCode>): (units: seq<seq<byte>>)
    requires WellSpaced(buf, codes)
    ensures |units| == if |codes| == 0 then 0 else |codes| - 1
    ensures forall k :: 0 <= k < |units| ==> UnitBetween(buf, codes, k) == units[k]
  {
    if |codes| < 2 then []
    else
      WellSpacedTail(buf, codes);
      var rest := Units(buf, codes[1..]);
      UnitsShift(buf, codes);
      [UnitBetween(buf, codes, 0)] + rest
  }

  /** Unit k of the codes after the first is unit k + 1 of all of them. */
  lemma UnitsShift(buf: seq<byte>, codes: seq<StartCode>)
    requires |codes| >= 2 && WellSpaced(buf, codes) && WellSpaced(buf, codes[1..])
    ensures forall k :: 0 <= k < |codes| - 2 ==> UnitBetween(buf, codes[1..], k) == UnitBetween(buf, codes, k + 1)
  {
    forall k | 0 <= k < |codes| - 2
      ensures UnitBetween(buf, codes[1..], k) == UnitBetween(buf, codes, k + 1)
    {
      assert codes[1..][k] == codes[k + 1] && codes[1..][k + 1] == codes[k + 2];
    }
  }

  /** The bytes from the end of code k to the start of code k + 1. */
  function UnitBetween(buf: seq<byte>, codes: seq<StartCode>, k: nat): (u: seq<byte>)
    requires WellSpaced(buf, codes) && k + 1 < |codes|
    ensures |u| < |buf|
  {
    buf[codes[k].pos + codes[k].len .. codes[k + 1].pos]
  }

  /** The units one pass of extractNALUs emits, in order. */
  function Emitted(buf: seq<byte>): (units: seq<seq<byte>>)
    ensures forall k :: 0 <= k < |units| ==> |units[k]| < |buf|
  {
    Units(buf, Scan(buf, 0))
  }

  /** The accumulator after one pass: compacted to the last start code, or
      dropped when it has no start code and exceeds the ceiling. */
  function Compacted(buf: seq<byte>): (r: seq<byte>)
    // whatever happens, only a prefix is discarded
    ensures |r| <= |buf| && r == buf[|buf| - |r|..]
    // with a start code, the kept suffix begins with the last one
    ensures |Scan(buf, 0)| > 0 ==>
              var last := Last(Scan(buf, 0));
              |r| == |buf| - last.pos && |r| > 3 && StartCodeLenAt(r, 0) == last.len
    // without one, the buffer is kept unless it is over the ceiling
    ensures |Scan(buf, 0)| == 0 ==>
              NoStartCodeIn(buf, 0, |buf|) &&
              r == (if |buf| > MaxBufferWithoutStartCode then [] else buf)
  {
    var codes := Scan(buf, 0);
    if |codes| > 0 then
      var r := buf[Last(codes).pos..];
      assert r[0..3] == buf[Last(codes).pos..Last(codes).pos + 3];
      assert r[0..4] == buf[Last(codes).pos..Last(codes).pos + 4];
      r
    else if |buf| > MaxBufferWithoutStartCode then []
    else buf
  }

  // ---------------------------------------------------------------------
  // Decode-session controller

  /** nal_unit_type of a unit: the low five bits of its first byte. */
  function NalType(nalu: seq<byte>): (t: nat)
    requires |nalu| > 0
    ensures t < 32
  {
    nalu[0] as int % 32
  }

  /** createFormatDescription: builds the format description only when both
      parameter sets are cached and none exists yet. */
  function CreateFormat(d: Decoder, configure: Configure): (r: Decoder)
    ensures r == d || r == d.(format := r.format)
    ensures r.format != d.format <==>
              d.format.None? && d.sps.Some? && d.pps.Some? && configure(d.sps.value, d.pps.value)
    ensures r.format != d.format ==> r.format == Some(FormatDescription(d.sps.value, d.pps.value))
  {
    if d.sps.Some? && d.pps.Some? && d.format.None? then
      if configure(d.sps.value, d.pps.value) then
        d.(format := Some(FormatDescription(d.sps.value, d.pps.value)))
      else d
    else d
  }

  /** The length-prefixed sample form of ISO/IEC 14496-15, section 5.3,
      with a four-byte big-endian length. */
  function LengthPrefixed(nalu: seq<byte>): (r: seq<byte>)
    requires |nalu| < TwoTo32
    ensures |r| == 4 + |nalu|
    ensures ReadBigEndian32(r, 0) == |nalu|
    ensures r[4..] == nalu
  {
    BigEndian32(|nalu|) + nalu
  }

  /** The unit carried by a length-prefixed sample: the inverse of LengthPrefixed. */
  function SampleUnit(data: seq<byte>): (r: Option<seq<byte>>)
    ensures r.Some? ==> |r.value| < TwoTo32 && data == BigEndian32(|r.value|) + r.value
  {
    if |data| >= 4 && ReadBigEndian32(data, 0) == |data| - 4 then
      BigEndian32OfRead(data, 0);
      assert data == data[0..4] + data[4..];
      Some(data[4..])
    else None
  }

  lemma SampleUnitInvertsLengthPrefixed(nalu: seq<byte>)
    requires |nalu| < TwoTo32
    ensures SampleUnit(LengthPrefixed(nalu)) == Some(nalu)
  {
  }

  /** enqueueFrame: a picture unit is submitted only when a format
      description exists, as the length-prefixed sample of that format. */
  function Enqueue(d: Decoder, nalu: seq<byte>): (r: Decoder)
    requires |nalu| < TwoTo32
    ensures r.format == d.format && r.buffer == d.buffer && r.sps == d.sps && r.pps == d.pps
    ensures d.format.None? ==> r.submitted == d.submitted
    ensures d.format.Some? ==> r.submitted == d.submitted + [Sample(d.format.value, LengthPrefixed(nalu))]
  {
    match d.format
    case None => d
    case Some(f) => d.(submitted := d.submitted + [Sample(f, LengthPrefixed(nalu))])
  }

  /** decodeSingleNALU: the effect of one emitted unit. */
  function DecodeUnit(d: Decoder, nalu: seq<byte>, configure: Configure): (r: Decoder)
    requires |nalu| < TwoTo32
    ensures r.buffer == d.buffer
    // empty units and unknown types change nothing
    ensures |nalu| == 0 || NalType(nalu) !in {NalNonIdrSlice, NalIdrSlice, NalSps, NalPps} ==> r == d
    // the SPS and PPS caches hold the latest unit of their type
    ensures r.sps == if |nalu| > 0 && NalType(nalu) == NalSps then Some(nalu) else d.sps
    ensures r.pps == if |nalu| > 0 && NalType(nalu) == NalPps then Some(nalu) else d.pps
    // a format description, once built, is never replaced; a new one is
    // built only from the cached SPS and PPS, and only on a PPS or IDR unit
    ensures d.format.Some? ==> r.format == d.format
    ensures r.format != d.format ==>
              NalType(nalu) in {NalIdrSlice, NalPps} && r.sps.Some? && r.pps.Some? &&
              configure(r.sps.value, r.pps.value) &&
              r.format == Some(FormatDescription(r.sps.value, r.pps.value))
    // and a PPS or IDR unit always builds it when none exists, both sets
    // are cached and the platform accepts them
    ensures |nalu| > 0 && NalType(nalu) in {NalIdrSlice, NalPps} && d.format.None? &&
            r.sps.Some? && r.pps.Some? && configure(r.sps.value, r.pps.value) ==>
              r.format == Some(FormatDescription(r.sps.value, r.pps.value))
    // only picture units are submitted, one sample each, and only with a format
    ensures r.submitted == d.submitted ||
            (NalType(nalu) in {NalNonIdrSlice, NalIdrSlice} && r.format.Some? &&
             r.submitted == d.submitted + [Sample(r.format.value, LengthPrefixed(nalu))])
    ensures |nalu| > 0 && NalType(nalu) in {NalNonIdrSlice, NalIdrSlice} && r.format.Some? ==>
              r.submitted == d.submitted + [Sample(r.format.value, LengthPrefixed(nalu))]
  {
    if |nalu| == 0 then d
    else
      var t := NalType(nalu);
      if t == NalSps then d.(sps := Some(nalu))
      else if t == NalPps then CreateFormat(d.(pps := Some(nalu)), configure)
      else if t == NalIdrSlice then Enqueue(CreateFormat(d, configure), nalu)
      else if t == NalNonIdrSlice then Enqueue(d, nalu)
      else d
  }

  /** The units of one pass, handled in order. */
  function DecodeAll(d: Decoder, units: seq<seq<byte>>, configure: Configure): (r: Decoder)
    requires forall k :: 0 <= k < |units| ==> |units[k]| < TwoTo32
    ensures r.buffer == d.buffer
    decreases |units|
  {
    if |units| == 0 then d
    else DecodeAll(DecodeUnit(d, units[0], configure), units[1..], configure)
  }

  /** extractNALUs: one scan pass over the accumulator. */
  function ExtractNalus(d: Decoder, configure: Configure): (r: Decoder)
    requires |d.buffer| < TwoTo32
    ensures r.buffer == Compacted(d.buffer)
  {
    var units := Emitted(d.buffer);
    DecodeAll(d, units, configure).(buffer := Compacted(d.buffer))
  }

  /** processRawBytes: one inbound binary packet. */
  function ProcessRawBytes(d: Decoder, data: seq<byte>, configure: Configure): (r: Decoder)
    requires |d.buffer| + |data| < TwoTo32
    // a dropped packet leaves the decoder untouched
    ensures PacketPayload(data).None? ==> r == d
    // an accepted packet appends exactly its payload before the scan
    ensures PacketPayload(data).Some? ==>
              r == ExtractNalus(d.(buffer := d.buffer + data[3 + data[2] as int..]), configure)
  {
    match PacketPayload(data)
    case None => d
    case Some(payload) => ExtractNalus(d.(buffer := d.buffer + payload), configure)
  }

  // ---------------------------------------------------------------------
  // Properties

  /** The greedy parse is unique, so Scan's contract determines its result:
      any list of codes meeting GreedyParse is the scan's output. */
  lemma {:induction false} GreedyParseUnique(buf: seq<byte>, from: nat, c1: seq<StartCode>, c2: seq<StartCode>)
    requires GreedyParse(buf, from, c1) && GreedyParse(buf, from, c2)
    ensures c1 == c2
    decreases |c1|
  {
    if |c1| == 0 || |c2| == 0 {
    } else {
      assert Detected(buf, c1[0]) && Detected(buf, c2[0]);
      assert c1[0].pos == c2[0].pos;
      var next := c1[0].pos + c1[0].len;
      GreedyTail(buf, from, c1);
      GreedyTail(buf, from, c2);
      GreedyParseUnique(buf, next, c1[1..], c2[1..]);
      assert c1 == [c1[0]] + c1[1..] && c2 == [c2[0]] + c2[1..];
    }
  }

  /** What follows the first code of a greedy parse is a greedy parse. */
  lemma GreedyTail(buf: seq<byte>, from: nat, codes: seq<StartCode>)
    requires GreedyParse(buf, from, codes) && |codes| > 0
    ensures GreedyParse(buf, codes[0].pos + codes[0].len, codes[1..])
  {
    var rest := codes[1..];
    WellSpacedTail(buf, codes);
    BetweenTail(buf, codes);
    if |rest| == 0 {
      assert Last(codes) == codes[0];
    } else {
      assert Last(rest) == Last(codes);
    }
  }

  /** The codes after the first are well spaced and all lie after its end. */
  lemma WellSpacedTail(buf: seq<byte>, codes: seq<StartCode>)
    requires WellSpaced(buf, codes) && |codes| > 0
    ensures WellSpaced(buf, codes[1..])
    ensures forall k :: 0 <= k < |codes| - 1 ==> codes[0].pos + codes[0].len <= codes[1..][k].pos
  {
    var rest := codes[1..];
    assert forall k :: 0 <= k < |rest| ==> rest[k] == codes[k + 1];
    forall k | 0 <= k < |rest|
      ensures codes[0].pos + codes[0].len <= rest[k].pos
    {
      LaterCodesFurther(buf, codes, 1, k + 1);
    }
  }

  lemma BetweenTail(buf: seq<byte>, codes: seq<StartCode>)
    requires NoStartCodeBetween(buf, codes) && |codes| > 0
    ensures NoStartCodeBetween(buf, codes[1..])
    ensures |codes| > 1 ==> NoStartCodeIn(buf, codes[0].pos + codes[0].len, codes[1..][0].pos)
  {
    var rest := codes[1..];
    forall k | 0 <= k < |rest| - 1
      ensures NoStartCodeIn(buf, rest[k].pos + rest[k].len, rest[k + 1].pos)
    {
      assert rest[k] == codes[k + 1] && rest[k + 1] == codes[k + 2];
    }
  }

  /** The codes of one pass followed by the units between them give back
      the accumulator from the first code to the last: the pass neither
      loses nor duplicates a byte, and the bytes from the last code on
      (which stay in the buffer) are not part of any emitted unit. */
  lemma {:induction false} PassConservesBytes(buf: seq<byte>, codes: seq<StartCode>)
    requires WellSpaced(buf, codes) && |codes| > 0
    ensures codes[0].pos <= Last(codes).pos && Reassemble(buf, codes) == buf[codes[0].pos .. Last(codes).pos]
  {
    LaterCodesFurther(buf, codes, 0, |codes| - 1);
    if |codes| >= 2 {
      var rest := codes[1..];
      WellSpacedTail(buf, codes);
      PassConservesBytes(buf, rest);
      assert Last(rest) == Last(codes);
      LaterCodesFurther(buf, codes, 1, |codes| - 1);
      SliceSplit3(buf, codes[0].pos, codes[0].pos + codes[0].len, codes[1].pos, Last(codes).pos);
    }
  }

  /** A slice is the concatenation of the three slices it is cut into. */
  lemma SliceSplit3(buf: seq<byte>, a: nat, b: nat, c: nat, d: nat)
    requires a <= b <= c <= d <= |buf|
    ensures buf[a..d] == buf[a..b] + buf[b..c] + buf[c..d]
  {
  }

  lemma {:induction false} LaterCodesFurther(buf: seq<byte>, codes: seq<StartCode>, i: nat, j: nat)
    requires WellSpaced(buf, codes) && i <= j < |codes|
    ensures codes[i].pos <= codes[j].pos
    decreases j - i
  {
    if i < j {
      LaterCodesFurther(buf, codes, i + 1, j);
    }
  }

  /** Code k's bytes followed by unit k, for every unit of the pass. */
  function Reassemble(buf: seq<byte>, codes: seq<StartCode>): seq<byte>
    requires WellSpaced(buf, codes)
    decreases |codes|
  {
    if |codes| < 2 then []
    else
      WellSpacedTail(buf, codes);
      buf[codes[0].pos .. codes[0].pos + codes[0].len] + UnitBetween(buf, codes, 0) + Reassemble(buf, codes[1..])
  }

  /** processRawBytes never looks at the packet's type byte. */
  lemma TypeByteIgnored(d: Decoder, data: seq<byte>, t: byte, configure: Configure)
    requires |d.buffer| + |data| < TwoTo32 && |data| > 1
    ensures ProcessRawBytes(d, data[1 := t], configure) == ProcessRawBytes(d, data, configure)
  {
    var data' := data[1 := t];
    if PacketPayload(data).Some? {
      assert data'[3 + data[2] as int..] == data[3 + data[2] as int..];
    }
  }

  /** Handling units never looks at the accumulator. */
  lemma {:induction false} DecodeAllIgnoresBuffer(d: Decoder, b: seq<byte>, units: seq<seq<byte>>, configure: Configure)
    requires forall k :: 0 <= k < |units| ==> |units[k]| < TwoTo32
    ensures DecodeAll(d.(buffer := b), units, configure) == DecodeAll(d, units, configure).(buffer := b)
    decreases |units|
  {
    if |units| > 0 {
      assert DecodeUnit(d.(buffer := b), units[0], configure) == DecodeUnit(d, units[0], configure).(buffer := b);
      DecodeAllIgnoresBuffer(DecodeUnit(d, units[0], configure), b, units[1..], configure);
    }
  }

  /** Handling a + b is handling a, then b. */
  lemma {:induction false} DecodeAllAppend(d: Decoder, a: seq<seq<byte>>, b: seq<seq<byte>>, configure: Configure)
    requires forall k :: 0 <= k < |a| ==> |a[k]| < TwoTo32
    requires forall k :: 0 <= k < |b| ==> |b[k]| < TwoTo32
    ensures DecodeAll(d, a + b, configure) == DecodeAll(DecodeAll(d, a, configure), b, configure)
    decreases |a|
  {
    if |a| == 0 {
      assert a + b == b;
    } else {
      assert (a + b)[0] == a[0] && (a + b)[1..] == a[1..] + b;
      DecodeAllAppend(DecodeUnit(d, a[0], configure), a[1..], b, configure);
    }
  }

  /** Over any run of units, a format description once built is kept, even
      when new parameter sets arrive, and the sample log only grows. */
  lemma {:induction false} FormatNeverReplaced(d: Decoder, units: seq<seq<byte>>, configure: Configure)
    requires forall k :: 0 <= k < |units| ==> |units[k]| < TwoTo32
    ensures var r := DecodeAll(d, units, configure);
            (d.format.Some? ==> r.format == d.format) &&
            |d.submitted| <= |r.submitted| && r.submitted[..|d.submitted|] == d.submitted
    decreases |units|
  {
    if |units| > 0 {
      var d' := DecodeUnit(d, units[0], configure);
      FormatNeverReplaced(d', units[1..], configure);
    }
  }

  /** Without a format description nothing is ever submitted: every sample
      in the log carries the format that existed when it was submitted. */
  lemma {:induction false} NoSubmissionWithoutFormat(d: Decoder, units: seq<seq<byte>>, configure: Configure)
    requires forall k :: 0 <= k < |units| ==> |units[k]| < TwoTo32
    requires d.format.None? && d.submitted == []
    ensures var r := DecodeAll(d, units, configure);
            r.format.None? ==> r.submitted == []
    decreases |units|
  {
    if |units| > 0 {
      var d' := DecodeUnit(d, units[0], configure);
      if d'.format.None? {
        NoSubmissionWithoutFormat(d', units[1..], configure);
      } else {
        FormatNeverReplaced(d', units[1..], configure);
      }
    }
  }

  /** A stream [SPS][PPS][IDR][P][P] reaching a fresh decoder whose
      platform accepts the parameter sets builds one format description,
      from that SPS and PPS, and submits exactly the three picture units. */
  lemma ParameterSetsThenPictures(sps: seq<byte>, pps: seq<byte>, idr: seq<byte>, p1: seq<byte>, p2: seq<byte>, configure: Configure)
    requires |sps| > 0 && |pps| > 0 && |idr| > 0 && |p1| > 0 && |p2| > 0
    requires |sps| < TwoTo32 && |pps| < TwoTo32 && |idr| < TwoTo32 && |p1| < TwoTo32 && |p2| < TwoTo32
    requires NalType(sps) == NalSps && NalType(pps) == NalPps && NalType(idr) == NalIdrSlice
    requires NalType(p1) == NalNonIdrSlice && NalType(p2) == NalNonIdrSlice
    requires configure(sps, pps)
    ensures var f := FormatDescription(sps, pps);
            var r := DecodeAll(Initial(), [sps, pps, idr, p1, p2], configure);
            r.format == Some(f) &&
            r.submitted == [Sample(f, LengthPrefixed(idr)), Sample(f, LengthPrefixed(p1)), Sample(f, LengthPrefixed(p2))]
  {
    var f := FormatDescription(sps, pps);
    var d0 := Initial();
    var d1 := DecodeUnit(d0, sps, configure);
    var d2 := DecodeUnit(d1, pps, configure);
    assert d2.format == Some(f) && d2.submitted == [];
    var d3 := DecodeUnit(d2, idr, configure);
    var d4 := DecodeUnit(d3, p1, configure);
    var d5 := DecodeUnit(d4, p2, configure);
    assert d5.submitted == [Sample(f, LengthPrefixed(idr)), Sample(f, LengthPrefixed(p1)), Sample(f, LengthPrefixed(p2))];
    assert DecodeAll(d4, [p2], configure) == d5 by {
      assert [p2][1..] == [];
    }
    assert DecodeAll(d3, [p1, p2], configure) == d5 by {
      assert [p1, p2][1..] == [p2];
    }
    assert DecodeAll(d2, [idr, p1, p2], configure) == d5 by {
      assert [idr, p1, p2][1..] == [p1, p2];
    }
    assert DecodeAll(d1, [pps, idr, p1, p2], configure) == d5 by {
      assert [pps, idr, p1, p2][1..] == [idr, p1, p2];
    }
    assert DecodeAll(d0, [sps, pps, idr, p1, p2], configure) == d5 by {
      assert [sps, pps, idr, p1, p2][1..] == [pps, idr, p1, p2];
    }
  }

  /** The samples of `units` under format `f`, one per unit, in order. */
  function SamplesOf(f: FormatDescription, units: seq<seq<byte>>): (r: seq<Sample>)
    requires forall k :: 0 <= k < |units| ==> |units[k]| < TwoTo32
    ensures |r| == |units|
  {
    seq(|units|, k requires 0 <= k < |units| => Sample(f, LengthPrefixed(units[k])))
  }

  /** Once a format description exists, every picture unit of any run is
      submitted, in order, under that format, and the format is kept. */
  lemma {:induction false} PicturesWithFormat(d: Decoder, pics: seq<seq<byte>>, configure: Configure)
    requires d.format.Some?
    requires forall k :: 0 <= k < |pics| ==> 0 < |pics[k]| < TwoTo32 && NalType(pics[k]) in {NalNonIdrSlice, NalIdrSlice}
    ensures DecodeAll(d, pics, configure).format == d.format
    ensures DecodeAll(d, pics, configure).submitted == d.submitted + SamplesOf(d.format.value, pics)
    decreases |pics|
  {
    if |pics| > 0 {
      var f := d.format.value;
      var d' := DecodeUnit(d, pics[0], configure);
      assert d'.submitted == d.submitted + [Sample(f, LengthPrefixed(pics[0]))];
      PicturesWithFormat(d', pics[1..], configure);
      assert SamplesOf(f, pics) == [Sample(f, LengthPrefixed(pics[0]))] + SamplesOf(f, pics[1..]);
    }
  }

  /** From any decoder without a format description, an SPS followed by a
      PPS that the platform accepts builds the format from exactly those
      two units, submitting nothing. */
  lemma ParameterSetsBuildFormat(d: Decoder, sps: seq<byte>, pps: seq<byte>, configure: Configure)
    requires 0 < |sps| < TwoTo32 && 0 < |pps| < TwoTo32
    requires NalType(sps) == NalSps && NalType(pps) == NalPps
    requires d.format.None? && configure(sps, pps)
    ensures DecodeAll(d, [sps, pps], configure).format == Some(FormatDescription(sps, pps))
    ensures DecodeAll(d, [sps, pps], configure).submitted == d.submitted
  {
    var d1 := DecodeUnit(d, sps, configure);
    var d2 := DecodeUnit(d1, pps, configure);
    assert DecodeAll(d1, [pps], configure) == d2 by {
      assert [pps][1..] == [];
    }
    assert DecodeAll(d, [sps, pps], configure) == d2 by {
      assert [sps, pps][1..] == [pps];
    }
  }

  /** Any stream of the shape SPS, PPS, pictures reaching a decoder without
      a format description, whose platform accepts the parameter sets,
      submits every picture, in order, under the format built from them. */
  lemma StreamAfterParameterSets(d: Decoder, sps: seq<byte>, pps: seq<byte>, pics: seq<seq<byte>>, configure: Configure)
    requires 0 < |sps| < TwoTo32 && 0 < |pps| < TwoTo32
    requires NalType(sps) == NalSps && NalType(pps) == NalPps
    requires d.format.None? && configure(sps, pps)
    requires forall k :: 0 <= k < |pics| ==> 0 < |pics[k]| < TwoTo32 && NalType(pics[k]) in {NalNonIdrSlice, NalIdrSlice}
    ensures var f := FormatDescription(sps, pps);
            var r := DecodeAll(d, [sps, pps] + pics, configure);
            r.format == Some(f) && r.submitted == d.submitted + SamplesOf(f, pics)
  {
    ParameterSetsBuildFormat(d, sps, pps, configure);
    DecodeAllAppend(d, [sps, pps], pics, configure);
    PicturesWithFormat(DecodeAll(d, [sps, pps], configure), pics, configure);
  }

  /** A pass over an accumulator with no start code emits nothing and keeps
      it, unless it exceeds the ceiling, in which case it is dropped. */
  lemma NoStartCodeMeansNoUnits(d: Decoder, configure: Configure)
    requires |d.buffer| < TwoTo32 && NoStartCodeIn(d.buffer, 0, |d.buffer|)
    ensures Emitted(d.buffer) == []
    ensures ExtractNalus(d, configure) ==
              d.(buffer := if |d.buffer| > MaxBufferWithoutStartCode then [] else d.buffer)
  {
    GreedyParseUnique(d.buffer, 0, Scan(d.buffer, 0), []);
  }
}

=== FILE: host_race.dfy ===
/** raceToFindFastestHost (MiniOrangeI/WebSocketManager.swift): probe every
    candidate at once and take the first that answers. The probes are
    concurrent HTTP requests; here their outcome is an input: which
    candidates answered at all, and the order in which the probes
    completed. */
module HostRace {
  import opened Common

  /** `order` lists the candidate indices in probe-completion order: every
      index appears, and nothing else does. */
  predicate CompletionOrder(order: seq<nat>, n: nat) {
    |order| == n &&
    (forall k :: 0 <= k < |order| ==> order[k] < n) &&
    (forall i :: 0 <= i < n ==> i in order)
  }

  /** The first candidate, from position `k` of the completion order on,
      whose probe answered. */
  function FirstAnswer(urls: seq<string>, answered: seq<bool>, order: seq<nat>, k: nat): (r: Option<nat>)
    requires |answered| == |urls| && k <= |order|
    requires forall j :: 0 <= j < |order| ==> order[j] < |urls|
    decreases |order| - k
    ensures r.Some? ==> k <= r.value < |order| && answered[order[r.value]] &&
                        forall j :: k <= j < r.value ==> !answered[order[j]]
    ensures r.None? ==> forall j :: k <= j < |order| ==> !answered[order[j]]
  {
    if k == |order| then None
    else if answered[order[k]] then Some(k)
    else FirstAnswer(urls, answered, order, k + 1)
  }

  /** The race. A single candidate is returned without being probed. Any
      other list (the empty one included) yields the first candidate, in
      completion order, whose probe answered, or nothing if none did. */
  function Race(urls: seq<string>, answered: seq<bool>, order: seq<nat>): (r: Option<string>)
    requires |answered| == |urls| && CompletionOrder(order, |urls|)
    ensures |urls| == 1 ==> r == Some(urls[0])
    ensures |urls| != 1 ==> (r.None? <==> forall i :: 0 <= i < |urls| ==> !answered[i])
    ensures |urls| != 1 && r.Some? ==>
              exists k :: 0 <= k < |order| && r.value == urls[order[k]] && answered[order[k]] &&
                          forall j :: 0 <= j < k ==> !answered[order[j]]
    ensures r.Some? ==> r.value in urls
  {
    if |urls| == 1 then Some(urls[0])
    else
      var first := FirstAnswer(urls, answered, order, 0);
      if first.None? then
        assert forall i :: 0 <= i < |urls| ==> !answered[i] by {
          forall i | 0 <= i < |urls|
            ensures !answered[i]
          {
            assert i in order;
            var k :| 0 <= k < |order| && order[k] == i;
          }
        }
        None
      else Some(urls[order[first.value]])
  }

  /** Which probe wins depends only on the completion order: if candidate
      i answered and completed before every other answering candidate,
      the race returns it. */
  lemma FastestAnswerWins(urls: seq<string>, answered: seq<bool>, order: seq<nat>, k: nat)
    requires |answered| == |urls| && CompletionOrder(order, |urls|) && |urls| != 1
    requires k < |order| && answered[order[k]]
    requires forall j :: 0 <= j < k ==> !answered[order[j]]
    ensures Race(urls, answered, order) == Some(urls[order[k]])
  {
    FirstAnswerAt(urls, answered, order, 0, k);
  }

  lemma {:induction false} FirstAnswerAt(urls: seq<string>, answered: seq<bool>, order: seq<nat>, from: nat, k: nat)
    requires |answered| == |urls| && from <= k < |order|
    requires forall j :: 0 <= j < |order| ==> order[j] < |urls|
    requires answered[order[k]] && forall j :: from <= j < k ==> !answered[order[j]]
    ensures FirstAnswer(urls, answered, order, from) == Some(k)
    decreases k - from
  {
    if from < k {
      FirstAnswerAt(urls, answered, order, from + 1, k);
    }
  }
}

=== FILE: json.dfy ===
/** The part of JSON the control channel uses, as the decoded value that
    JSONSerialization hands the message router. Only integral numbers are
    represented: they are what the router's `as? Int` tests accept. */
module Json {
  import opened Common

  datatype Json =
    | JNull
    | JBool(b: bool)
    | JInt(n: int)
    | JString(s: string)
    | JArray(items: seq<Json>)
    | JObject(fields: map<string, Json>)

  /** `dict[key] as? String`. */
  function StringField(o: map<string, Json>, key: string): (r: Option<string>)
    ensures r.Some? <==> key in o && o[key].JString?
    ensures r.Some? ==> o[key] == JString(r.value)
  {
    if key in o && o[key].JString? then Some(o[key].s) else None
  }

  /** `dict[key] as? Int`. */
  function IntField(o: map<string, Json>, key: string): (r: Option<int>)
    ensures r.Some? <==> key in o && o[key].JInt?
    ensures r.Some? ==> o[key] == JInt(r.value)
  {
    if key in o && o[key].JInt? then Some(o[key].n) else None
  }

  /** `dict[key] as? [String: Any]`. */
  function ObjectField(o: map<string, Json>, key: string): (r: Option<map<string, Json>>)
    ensures r.Some? <==> key in o && o[key].JObject?
    ensures r.Some? ==> o[key] == JObject(r.value)
  {
    if key in o && o[key].JObject? then Some(o[key].fields) else None
  }

  /** Every element of a JSON array is an object. */
  predicate AllObjects(items: seq<Json>) {
    forall k :: 0 <= k < |items| ==> items[k].JObject?
  }

  /** `dict[key] as? [[String: Any]]`: an array all of whose elements are
      objects, as the list of their field maps; any other value fails. */
  function ObjectListField(o: map<string, Json>, key: string): (r: Option<seq<map<string, Json>>>)
    ensures r.Some? <==> key in o && o[key].JArray? && AllObjects(o[key].items)
    ensures r.Some? ==> |r.value| == |o[key].items| &&
                        forall k :: 0 <= k < |r.value| ==> o[key].items[k] == JObject(r.value[k])
  {
    if key in o && o[key].JArray? && AllObjects(o[key].items) then
      var items := o[key].items;
      Some(seq(|items|, k requires 0 <= k < |items| => items[k].fields))
    else None
  }
}

=== FILE: media_round_trip.dfy ===
/** The two halves of the media path put together: what the packetizer
    (ScreenRecorder) sends is what the depacketizer (H264Decoder) takes
    apart again. */
module MediaRoundTrip {
  import opened Common
  import opened H264Decoder
  import opened ScreenRecorder

  /** The header the packetizer writes is the header the decoder strips:
      a framed nonempty unit comes back out unchanged. */
  lemma PacketRoundTrip(sn: seq<byte>, nalu: seq<byte>)
    requires |sn| <= 255 && |nalu| > 0
    ensures PacketPayload(Frame(sn, nalu)) == Some(nalu)
  {
  }

  /** Consequently a sent packet, given to processRawBytes, appends exactly
      its unit to the accumulator before the scan. */
  lemma SentPacketAppendsUnit(d: Decoder, sn: seq<byte>, nalu: seq<byte>, configure: Configure)
    requires |sn| <= 255 && |nalu| > 0 && |d.buffer| + 3 + |sn| + |nalu| < TwoTo32
    ensures ProcessRawBytes(d, Frame(sn, nalu), configure) ==
            ExtractNalus(d.(buffer := d.buffer + nalu), configure)
  {
    PacketRoundTrip(sn, nalu);
  }

  /** A unit without the three-byte pattern 00 00 01 anywhere inside it.
      Emulation prevention (ITU-T H.264, section 7.4.1) guarantees this of
      every NAL unit; it is all the decoder's scan needs. */
  predicate StartCodeFree(u: seq<byte>) {
    forall i :: 0 <= i && i + 2 < |u| ==> !(u[i] == 0 && u[i + 1] == 0 && u[i + 2] == 1)
  }

  /** Largest unit the stream theorems cover, so that two units and a
      packet header stay below the 2^32 bound of the length field. */
  const MaxUnit: nat := 0x7000_0000

  predicate Transmittable(u: seq<byte>) {
    StartCodeFree(u) && |u| < MaxUnit
  }

  /** A start-code-free stretch of the accumulator holds no start code. */
  lemma FreeStretch(buf: seq<byte>, start: nat, v: seq<byte>)
    requires start + |v| <= |buf| && StartCodeFree(v)
    requires forall i :: 0 <= i < |v| ==> buf[start + i] == v[i]
    ensures NoStartCodeIn(buf, start, if |v| >= 3 then start + |v| - 3 else start)
  {
    forall p | start <= p < (if |v| >= 3 then start + |v| - 3 else start) && p + 3 < |buf|
      ensures StartCodeLenAt(buf, p) == 0
    {
      var i := p - start;
      assert buf[p] == v[i] && buf[p + 1] == v[i + 1] && buf[p + 2] == v[i + 2] && buf[p + 3] == v[i + 3];
      assert !(v[i] == 0 && v[i + 1] == 0 && v[i + 2] == 1);
      assert !(v[i + 1] == 0 && v[i + 2] == 0 && v[i + 3] == 1);
    }
  }

  /** The three offsets just before a start code 00 00 00 01 at s do not
      hold a code themselves when the unit before it is start-code free. */
  lemma BeforeStartCode(buf: seq<byte>, s: nat, u: seq<byte>)
    requires s == 4 + |u| && s + 4 <= |buf| && StartCodeFree(u)
    requires buf[s] == 0 && buf[s + 1] == 0 && buf[s + 2] == 0 && buf[s + 3] == 1
    requires forall i :: 0 <= i < |u| ==> buf[4 + i] == u[i]
    ensures NoStartCodeIn(buf, if s >= 7 then s - 3 else 4, s)
  {
    forall p | (if s >= 7 then s - 3 else 4) <= p < s && p + 3 < |buf|
      ensures StartCodeLenAt(buf, p) == 0
    {
      if p + 2 < s {
        var i := p - 4;
        assert buf[p] == u[i] && buf[p + 1] == u[i + 1] && buf[p + 2] == u[i + 2];
        assert p + 3 == s;
      }
    }
  }

  /** The first packet of a stream: the accumulator holds its start code and unit. */
  lemma ScanOneUnit(v: seq<byte>)
    requires StartCodeFree(v)
    ensures Scan(StartCode4 + v, 0) == [StartCode(0, 4)]
  {
    var buf := StartCode4 + v;
    assert |buf| == 4 + |v| && buf[0] == 0 && buf[1] == 0 && buf[2] == 0 && buf[3] == 1;
    assert forall i :: 0 <= i < |v| ==> buf[4 + i] == v[i];
    ScanOneLaidOut(buf, v);
  }

  lemma ScanOneLaidOut(buf: seq<byte>, v: seq<byte>)
    requires StartCodeFree(v) && |buf| == 4 + |v|
    requires buf[0] == 0 && buf[1] == 0 && buf[2] == 0 && buf[3] == 1
    requires forall i :: 0 <= i < |v| ==> buf[4 + i] == v[i]
    ensures Scan(buf, 0) == [StartCode(0, 4)]
  {
    FreeStretch(buf, 4, v);
    var codes := [StartCode(0, 4)];
    assert StartCodeLenAt(buf, 0) == 4;
    assert GreedyParse(buf, 0, codes);
    GreedyParseUnique(buf, 0, Scan(buf, 0), codes);
  }

  /** Two start codes 00 00 00 01, at 0 and at s, with none detected in
      between or after the second: that is the whole greedy parse. */
  lemma TwoCodesParse(buf: seq<byte>, s: nat)
    requires 4 <= s && s + 4 < |buf| + 1
    requires buf[0] == 0 && buf[1] == 0 && buf[2] == 0 && buf[3] == 1
    requires buf[s] == 0 && buf[s + 1] == 0 && buf[s + 2] == 0 && buf[s + 3] == 1
    requires NoStartCodeIn(buf, 4, s) && NoStartCodeIn(buf, s + 4, |buf|)
    requires s + 3 < |buf|
    ensures Scan(buf, 0) == [StartCode(0, 4), StartCode(s, 4)]
  {
    var codes := [StartCode(0, 4), StartCode(s, 4)];
    assert StartCodeLenAt(buf, 0) == 4;
    assert StartCodeLenAt(buf, s) == 4;
    assert WellSpaced(buf, codes);
    assert GreedyParse(buf, 0, codes);
    GreedyParseUnique(buf, 0, Scan(buf, 0), codes);
  }

  /** Two units in the accumulator: the scan finds exactly their two start codes. */
  lemma {:induction false} ScanTwoUnits(u: seq<byte>, v: seq<byte>)
    requires StartCodeFree(u) && StartCodeFree(v)
    ensures var s := 4 + |u|;
            Scan(StartCode4 + u + StartCode4 + v, 0) == [StartCode(0, 4), StartCode(s, 4)]
  {
    TwoUnitsLayout(u, v);
    ScanLaidOut(StartCode4 + u + StartCode4 + v, u, v);
  }

  lemma ScanLaidOut(buf: seq<byte>, u: seq<byte>, v: seq<byte>)
    requires StartCodeFree(u) && StartCodeFree(v)
    requires |buf| == 4 + |u| + 4 + |v|
    requires forall i :: 0 <= i < |u| ==> buf[4 + i] == u[i]
    requires forall i :: 0 <= i < |v| ==> buf[4 + |u| + 4 + i] == v[i]
    requires buf[0] == 0 && buf[1] == 0 && buf[2] == 0 && buf[3] == 1
    requires var s := 4 + |u|; buf[s] == 0 && buf[s + 1] == 0 && buf[s + 2] == 0 && buf[s + 3] == 1
    ensures Scan(buf, 0) == [StartCode(0, 4), StartCode(4 + |u|, 4)]
  {
    var s := 4 + |u|;
    FreeStretch(buf, 4, u);
    BeforeStartCode(buf, s, u);
    FreeStretch(buf, s + 4, v);
    TwoCodesParse(buf, s);
  }

  /** Where the bytes of start code + u + start code + v sit. */
  lemma TwoUnitsLayout(u: seq<byte>, v: seq<byte>)
    ensures var buf := StartCode4 + u + StartCode4 + v;
            var s := 4 + |u|;
            |buf| == s + 4 + |v| &&
            (forall i :: 0 <= i < |u| ==> buf[4 + i] == u[i]) &&
            (forall i :: 0 <= i < |v| ==> buf[s + 4 + i] == v[i]) &&
            buf[0] == 0 && buf[1] == 0 && buf[2] == 0 && buf[3] == 1 &&
            buf[s] == 0 && buf[s + 1] == 0 && buf[s + 2] == 0 && buf[s + 3] == 1
  {
  }

  /** One pass over two units emits the first and keeps the second. */
  lemma {:induction false} PassOverTwoUnits(u: seq<byte>, v: seq<byte>)
    requires StartCodeFree(u) && StartCodeFree(v)
    ensures Emitted(StartCode4 + u + StartCode4 + v) == [u]
    ensures Compacted(StartCode4 + u + StartCode4 + v) == StartCode4 + v
  {
    var buf := StartCode4 + u + StartCode4 + v;
    ScanTwoUnits(u, v);
    var s := 4 + |u|;
    var codes := [StartCode(0, 4), StartCode(s, 4)];
    assert UnitBetween(buf, codes, 0) == buf[4 .. s];
    assert buf[4 .. s] == u;
    assert Units(buf, codes) == [u];
    assert buf[s..] == StartCode4 + v;
  }

  /** The packet for the first unit of a stream only fills the accumulator. */
  lemma {:induction false} FirstPacket(d: Decoder, sn: seq<byte>, v: seq<byte>, configure: Configure)
    requires |sn| <= 255 && d.buffer == [] && Transmittable(v)
    ensures ProcessRawBytes(d, Frame(sn, StartCode4 + v), configure) == d.(buffer := StartCode4 + v)
  {
    var buf := StartCode4 + v;
    PacketRoundTrip(sn, buf);
    assert d.buffer + buf == buf;
    ScanOneUnit(v);
    assert Emitted(buf) == [];
  }

  /** The packet for the next unit releases the previous unit, unchanged,
      and leaves the new unit waiting in the accumulator. */
  lemma {:induction false} NextPacket(d: Decoder, sn: seq<byte>, u: seq<byte>, v: seq<byte>, configure: Configure)
    requires |sn| <= 255 && Transmittable(u) && Transmittable(v)
    requires d.buffer == StartCode4 + u
    ensures ProcessRawBytes(d, Frame(sn, StartCode4 + v), configure) ==
            DecodeAll(d, [u], configure).(buffer := StartCode4 + v)
  {
    var buf := StartCode4 + u + StartCode4 + v;
    PacketRoundTrip(sn, StartCode4 + v);
    assert d.buffer + (StartCode4 + v) == buf;
    PassOverTwoUnits(u, v);
    assert ExtractNalus(d.(buffer := buf), configure) == DecodeAll(d.(buffer := buf), [u], configure).(buffer := StartCode4 + v);
    DecodeAllIgnoresBuffer(d, buf, [u], configure);
  }

  /** The units still to be released: the one waiting in the accumulator, if any. */
  function Waiting(prev: Option<seq<byte>>): seq<seq<byte>> {
    if prev.None? then [] else [prev.value]
  }

  /** Every unit fits the four-byte length field. */
  predicate Bounded(units: seq<seq<byte>>) {
    forall k :: 0 <= k < |units| ==> |units[k]| < TwoTo32
  }

  function Prefix(units: seq<seq<byte>>): seq<seq<byte>>
    requires |units| > 0
  {
    units[..|units| - 1]
  }

  /** The decoder after the packets of a stream of units arrive one by one,
      each unit framed as start code + unit by the packetizer. `prev` is the
      unit the accumulator already holds. The contract is the stream round
      trip: every unit except the newest is handed to the controller
      unchanged and in order, and the newest waits in the accumulator. */
  function Deliver(d: Decoder, prev: Option<seq<byte>>, sn: seq<byte>, units: seq<seq<byte>>, configure: Configure): (r: Decoder)
    requires |sn| <= 255
    requires d.buffer == (if prev.None? then [] else StartCode4 + prev.value)
    requires prev.Some? ==> Transmittable(prev.value)
    requires forall k :: 0 <= k < |units| ==> Transmittable(units[k])
    ensures |units| == 0 ==> r == d
    ensures |units| > 0 ==>
              Bounded(Waiting(prev) + Prefix(units)) &&
              r == DecodeAll(d, Waiting(prev) + Prefix(units), configure).(buffer := StartCode4 + Last(units))
    decreases |units|
  {
    if |units| == 0 then d
    else
      DeliverOne(d, prev, sn, units, configure);
      var d' := ProcessRawBytes(d, Frame(sn, StartCode4 + units[0]), configure);
      var rest := units[1..];
      var r := Deliver(d', Some(units[0]), sn, rest, configure);
      StreamBounded(prev, units);
      DeliverStep(d, prev, units, configure);
      r
  }

  /** Transmittable units fit the length field, the waiting one included. */
  lemma StreamBounded(prev: Option<seq<byte>>, units: seq<seq<byte>>)
    requires prev.Some? ==> Transmittable(prev.value)
    requires |units| > 0 && forall k :: 0 <= k < |units| ==> Transmittable(units[k])
    ensures prev.Some? ==> |prev.value| < TwoTo32
    ensures forall k :: 0 <= k < |units| ==> |units[k]| < TwoTo32
    ensures Bounded(Waiting(prev) + Prefix(units))
  {
    var all := Waiting(prev) + Prefix(units);
    forall k | 0 <= k < |all|
      ensures |all[k]| < TwoTo32
    {
      if prev.Some? && k == 0 {
        assert all[k] == prev.value;
      } else {
        var j := if prev.Some? then k - 1 else k;
        assert all[k] == units[j];
        assert Transmittable(units[j]);
      }
    }
  }

  /** The first packet of a Deliver step fits the accumulator and releases
      the waiting unit, if there is one. */
  lemma {:induction false} DeliverOne(d: Decoder, prev: Option<seq<byte>>, sn: seq<byte>, units: seq<seq<byte>>, configure: Configure)
    requires |sn| <= 255 && |units| > 0
    requires d.buffer == (if prev.None? then [] else StartCode4 + prev.value)
    requires prev.Some? ==> Transmittable(prev.value)
    requires forall k :: 0 <= k < |units| ==> Transmittable(units[k])
    ensures |d.buffer| + |Frame(sn, StartCode4 + units[0])| < TwoTo32
    ensures ProcessRawBytes(d, Frame(sn, StartCode4 + units[0]), configure) ==
            DecodeAll(d, Waiting(prev), configure).(buffer := StartCode4 + units[0])
    ensures forall k :: 0 <= k < |units| - 1 ==> Transmittable(units[1..][k])
  {
    assert Transmittable(units[0]);
    if prev.None? {
      FirstPacket(d, sn, units[0], configure);
    } else {
      NextPacket(d, sn, prev.value, units[0], configure);
    }
    forall k | 0 <= k < |units| - 1
      ensures Transmittable(units[1..][k])
    {
      assert units[1..][k] == units[k + 1];
    }
  }

  /** A bounded unit waiting before all but the last of bounded units. */
  lemma WaitingBounded(u: seq<byte>, rest: seq<seq<byte>>)
    requires |u| < TwoTo32 && |rest| > 0 && forall k :: 0 <= k < |rest| ==> |rest[k]| < TwoTo32
    ensures Bounded(Waiting(Some(u)) + Prefix(rest))
  {
    var all := Waiting(Some(u)) + Prefix(rest);
    forall k | 0 <= k < |all|
      ensures |all[k]| < TwoTo32
    {
      if k > 0 {
        assert all[k] == rest[k - 1];
      }
    }
  }

  /** The bookkeeping of one step of Deliver: handling the waiting unit and
      then the rest is handling all of them, whatever the accumulator holds. */
  lemma DeliverStep(d: Decoder, prev: Option<seq<byte>>, units: seq<seq<byte>>, configure: Configure)
    requires prev.Some? ==> |prev.value| < TwoTo32
    requires |units| > 0 && forall k :: 0 <= k < |units| ==> |units[k]| < TwoTo32
    ensures var d' := DecodeAll(d, Waiting(prev), configure).(buffer := StartCode4 + units[0]);
            var rest := units[1..];
            (|rest| == 0 ==> d' == DecodeAll(d, Waiting(prev) + Prefix(units), configure).(buffer := StartCode4 + Last(units))) &&
            (|rest| > 0 ==>
               Last(rest) == Last(units) &&
               DecodeAll(d', Waiting(Some(units[0])) + Prefix(rest), configure).(buffer := StartCode4 + Last(rest)) ==
               DecodeAll(d, Waiting(prev) + Prefix(units), configure).(buffer := StartCode4 + Last(units)))
  {
    var w := DecodeAll(d, Waiting(prev), configure);
    var rest := units[1..];
    if |rest| == 0 {
      assert Prefix(units) == [];
      assert Waiting(prev) + Prefix(units) == Waiting(prev);
    } else {
      WaitingBounded(units[0], rest);
      assert Bounded(Waiting(Some(units[0])) + Prefix(rest));
      DecodeAllIgnoresBuffer(w, StartCode4 + units[0], Waiting(Some(units[0])) + Prefix(rest), configure);
      assert Waiting(prev) + Prefix(units) == Waiting(prev) + (Waiting(Some(units[0])) + Prefix(rest));
      DecodeAllAppend(d, Waiting(prev), Waiting(Some(units[0])) + Prefix(rest), configure);
      assert DecodeAll(w.(buffer := StartCode4 + units[0]), Waiting(Some(units[0])) + Prefix(rest), configure).(buffer := StartCode4 + Last(rest))
          == DecodeAll(w, Waiting(Some(units[0])) + Prefix(rest), configure).(buffer := StartCode4 + Last(rest));
    }
  }

  /** End to end: a fresh decoder fed the packets of units u1..un, one unit
      per packet as the packetizer sends them, has handed u1..u(n-1) to the
      controller unchanged and in order, and holds un in its accumulator
      until the next unit's packet arrives. */
  lemma {:induction false} StreamRoundTrip(sn: seq<byte>, units: seq<seq<byte>>, configure: Configure)
    requires |sn| <= 255 && |units| > 0
    requires forall k :: 0 <= k < |units| ==> Transmittable(units[k])
    ensures Deliver(Initial(), None, sn, units, configure) ==
            DecodeAll(Initial(), Prefix(units), configure).(buffer := StartCode4 + Last(units))
  {
    assert Waiting(None) + Prefix(units) == Prefix(units);
  }

  /** The packets handleEncodedFrame sends for an encoder buffer are the
      packets Deliver feeds, one per NAL unit, in order. */
  lemma EncodedFrameIsUnitStream(sn: seq<byte>, records: seq<seq<byte>>)
    requires |sn| <= 255
    requires forall k :: 0 <= k < |records| ==> |records[k]| < TwoTo32
    requires |records| == 0 || |Last(records)| > 0
    ensures WellFormedAvcc(AvccEncode(records), 0)
    ensures HandleEncodedFrame(Some(sn), AvccEncode(records)) ==
            seq(|records|, k requires 0 <= k < |records| => Frame(sn, StartCode4 + records[k]))
  {
    AvccToAnnexB(records);
    var units := AnnexBUnits(AvccEncode(records), 0);
    assert forall k :: 0 <= k < |records| ==> units[k] == StartCode4 + records[k] by {
      WithStartCodesAt(records);
    }
  }

  lemma {:induction false} WithStartCodesAt(records: seq<seq<byte>>)
    ensures forall k :: 0 <= k < |records| ==> WithStartCodes(records)[k] == StartCode4 + records[k]
  {
    if |records| > 0 {
      WithStartCodesAt(records[1..]);
      assert forall k :: 1 <= k < |records| ==> WithStartCodes(records)[k] == WithStartCodes(records[1..])[k - 1];
    }
  }
}

=== FILE: models.dfy ===
/** The records shared by the connection manager and the device list
    (MiniOrangeI/Models.swift). */
module Models {
  import opened Common

  /** A device of the cluster; its identity is its serial number. */
  datatype Device = Device(sn: string, model: string, status: string)

  /** A dashboard workflow entry. */
  datatype WorkflowItem = WorkflowItem(id: string, name: string, icon: string, color: Option<string>)
}

=== FILE: screen_recorder.dfy ===
/** The send side of the media path (MiniOrangeI/ScreenRecorder.swift):
    the encoder's output buffer holds AVCC records (a four-byte big-endian
    length, then that many bytes); handleEncodedFrame rewrites each record
    as an Annex B unit (start code 00 00 00 01, then the bytes) and
    sendPacket frames each unit for the current viewer. */
module ScreenRecorder {
  import opened Common

  /** Every record the walk reaches from `offset` on lies inside `data`.
      handleEncodedFrame copies each record without a bounds check, so its
      callers must supply such a buffer. */
  predicate WellFormedAvcc(data: seq<byte>, offset: nat)
    decreases |data| - offset
  {
    offset + 4 < |data| ==>
      var next := offset + 4 + ReadBigEndian32(data, offset);
      next <= |data| && WellFormedAvcc(data, next)
  }

  /** The units handleEncodedFrame produces, walking from `offset`: while
      more than four bytes remain, read a length L, emit the start code
      followed by the next L bytes, and advance by 4 + L. */
  function AnnexBUnits(data: seq<byte>, offset: nat): (units: seq<seq<byte>>)
    requires WellFormedAvcc(data, offset)
    decreases |data| - offset
    ensures forall k :: 0 <= k < |units| ==> |units[k]| >= 4 && units[k][..4] == StartCode4
  {
    if offset + 4 < |data| then
      var len := ReadBigEndian32(data, offset);
      var rest := AnnexBUnits(data, offset + 4 + len);
      var unit := StartCode4 + data[offset + 4 .. offset + 4 + len];
      assert unit[..4] == StartCode4;
      [unit] + rest
    else []
  }

  /** The AVCC buffer the encoder hands over for a list of NAL units:
      each unit preceded by its four-byte big-endian length. */
  function AvccEncode(records: seq<seq<byte>>): (data: seq<byte>)
    requires forall k :: 0 <= k < |records| ==> |records[k]| < TwoTo32
  {
    if |records| == 0 then []
    else BigEndian32(|records[0]|) + records[0] + AvccEncode(records[1..])
  }

  /** The Annex B byte stream of a list of NAL units. */
  function AnnexBStream(records: seq<seq<byte>>): (stream: seq<byte>)
  {
    if |records| == 0 then [] else StartCode4 + records[0] + AnnexBStream(records[1..])
  }

  /** The walk does not depend on bytes before its starting offset. */
  lemma {:induction false} WalkShift(x: seq<byte>, y: seq<byte>, o: nat)
    ensures WellFormedAvcc(x + y, |x| + o) == WellFormedAvcc(y, o)
    ensures WellFormedAvcc(y, o) ==> AnnexBUnits(x + y, |x| + o) == AnnexBUnits(y, o)
    ensures AnnexBEndsAtEnd(x + y, |x| + o) == AnnexBEndsAtEnd(y, o)
    decreases |y| - o
  {
    var xy := x + y;
    if o + 4 < |y| {
      assert xy[|x| + o .. |x| + o + 4] == y[o .. o + 4];
      assert ReadBigEndian32(xy, |x| + o) == ReadBigEndian32(y, o) by {
        assert xy[|x| + o] == y[o] && xy[|x| + o + 1] == y[o + 1];
        assert xy[|x| + o + 2] == y[o + 2] && xy[|x| + o + 3] == y[o + 3];
      }
      var next := o + 4 + ReadBigEndian32(y, o);
      if next <= |y| {
        WalkShift(x, y, next);
        assert xy[|x| + o + 4 .. |x| + next] == y[o + 4 .. next];
      }
    }
  }

  /** Each record with the start code in front of it. */
  function WithStartCodes(records: seq<seq<byte>>): (units: seq<seq<byte>>)
    ensures |units| == |records|
  {
    if |records| == 0 then [] else [StartCode4 + records[0]] + WithStartCodes(records[1..])
  }

  /** For well-formed encoder output, the walk turns every record into a
      start code followed by the record: the four-byte length headers are
      replaced by 00 00 00 01 and nothing else changes. The last record
      must be nonempty: the loop stops once four bytes or fewer remain. */
  lemma AvccToAnnexB(records: seq<seq<byte>>)
    requires forall k :: 0 <= k < |records| ==> |records[k]| < TwoTo32
    requires |records| == 0 || |Last(records)| > 0
    ensures WellFormedAvcc(AvccEncode(records), 0) && AnnexBEndsAtEnd(AvccEncode(records), 0)
    ensures AnnexBUnits(AvccEncode(records), 0) == WithStartCodes(records)
    ensures Flatten(AnnexBUnits(AvccEncode(records), 0)) == AnnexBStream(records)
  {
    AvccWalk(records);
    FlattenWithStartCodes(records);
  }

  lemma {:induction false} AvccWalk(records: seq<seq<byte>>)
    requires forall k :: 0 <= k < |records| ==> |records[k]| < TwoTo32
    requires |records| == 0 || |Last(records)| > 0
    ensures WellFormedAvcc(AvccEncode(records), 0) && AnnexBEndsAtEnd(AvccEncode(records), 0)
    ensures AnnexBUnits(AvccEncode(records), 0) == WithStartCodes(records)
  {
    if |records| > 0 {
      var rest := records[1..];
      assert |rest| == 0 || Last(rest) == Last(records);
      AvccWalk(rest);
      assert |rest| > 0 ==> |AvccEncode(rest)| >= 4;
      AvccHead(records[0], AvccEncode(rest));
    }
  }

  /** One step of the walk over a record followed by a well-formed tail. */
  lemma {:induction false} AvccHead(r: seq<byte>, tail: seq<byte>)
    requires |r| < TwoTo32 && |r| + |tail| > 0
    requires WellFormedAvcc(tail, 0) && AnnexBEndsAtEnd(tail, 0)
    ensures WellFormedAvcc(BigEndian32(|r|) + r + tail, 0) && AnnexBEndsAtEnd(BigEndian32(|r|) + r + tail, 0)
    ensures AnnexBUnits(BigEndian32(|r|) + r + tail, 0) == [StartCode4 + r] + AnnexBUnits(tail, 0)
  {
    var head := BigEndian32(|r|) + r;
    var data := head + tail;
    WalkShift(head, tail, 0);
    ReadPrefix(head, tail, 0);
    assert ReadBigEndian32(data, 0) == |r|;
    assert data[4 .. 4 + |r|] == r;
  }

  /** Reading a length field only looks at its four bytes. */
  lemma ReadPrefix(head: seq<byte>, tail: seq<byte>, i: nat)
    requires i + 4 <= |head|
    ensures ReadBigEndian32(head + tail, i) == ReadBigEndian32(head, i)
  {
    var ht := head + tail;
    assert ht[i] == head[i] && ht[i + 1] == head[i + 1] && ht[i + 2] == head[i + 2] && ht[i + 3] == head[i + 3];
  }

  lemma {:induction false} FlattenWithStartCodes(records: seq<seq<byte>>)
    ensures Flatten(WithStartCodes(records)) == AnnexBStream(records)
  {
    if |records| > 0 {
      FlattenWithStartCodes(records[1..]);
      assert WithStartCodes(records)[1..] == WithStartCodes(records[1..]);
    }
  }

  /** The edge the loop bound creates: a final empty record is never emitted. */
  lemma TrailingEmptyRecordDropped(records: seq<seq<byte>>)
    requires forall k :: 0 <= k < |records| ==> |records[k]| < TwoTo32
    requires |records| == 0 || |Last(records)| > 0
    ensures WellFormedAvcc(AvccEncode(records), 0) && WellFormedAvcc(AvccEncode(records + [[]]), 0)
    ensures AnnexBUnits(AvccEncode(records + [[]]), 0) == AnnexBUnits(AvccEncode(records), 0)
  {
    AvccAppend(records, [[]]);
    var data := AvccEncode(records);
    var tail := AvccEncode([[]]);
    assert tail == [0, 0, 0, 0];
    AvccToAnnexB(records);
    TailIgnored(data, tail, 0);
  }

  lemma {:induction false} AvccAppend(a: seq<seq<byte>>, b: seq<seq<byte>>)
    requires forall k :: 0 <= k < |a| ==> |a[k]| < TwoTo32
    requires forall k :: 0 <= k < |b| ==> |b[k]| < TwoTo32
    ensures AvccEncode(a + b) == AvccEncode(a) + AvccEncode(b)
  {
    if |a| == 0 {
      assert a + b == b;
    } else {
      assert (a + b)[1..] == a[1..] + b;
      AvccAppend(a[1..], b);
    }
  }

  /** A walk that ends exactly at the end of `data` ignores four trailing bytes. */
  lemma {:induction false} TailIgnored(data: seq<byte>, tail: seq<byte>, o: nat)
    requires |tail| == 4 && WellFormedAvcc(data, o) && o <= |data|
    requires AnnexBEndsAtEnd(data, o)
    ensures WellFormedAvcc(data + tail, o)
    ensures AnnexBUnits(data + tail, o) == AnnexBUnits(data, o)
    decreases |data| - o
  {
    var dt := data + tail;
    if o + 4 < |data| {
      assert ReadBigEndian32(dt, o) == ReadBigEndian32(data, o);
      var next := o + 4 + ReadBigEndian32(data, o);
      TailIgnored(data, tail, next);
      assert dt[o + 4 .. next] == data[o + 4 .. next];
    }
  }

  /** The walk from `o` stops exactly at the end of `data`. */
  predicate AnnexBEndsAtEnd(data: seq<byte>, o: nat)
    decreases |data| - o
  {
    if o + 4 < |data| then
      var next := o + 4 + ReadBigEndian32(data, o);
      next <= |data| && AnnexBEndsAtEnd(data, next)
    else o == |data|
  }

  // ---------------------------------------------------------------------
  // Packet framing

  /** The packet [0xAA][0x02][|sn|][sn][unit] sendPacket builds. The length
      byte is UInt8(snData.count), which traps above 255. */
  function Frame(sn: seq<byte>, nalu: seq<byte>): (packet: seq<byte>)
    requires |sn| <= 255
    ensures |packet| == 3 + |sn| + |nalu|
    ensures packet[0] == PacketMagic && packet[1] == MediaPacketType && packet[2] as int == |sn|
    ensures packet[3 .. 3 + |sn|] == sn && packet[3 + |sn| ..] == nalu
  {
    [PacketMagic, MediaPacketType, |sn| as byte] + sn + nalu
  }

  /** sendPacket: nothing is sent while no viewer is set; otherwise one
      framed packet addressed to the viewer (its UTF-8 bytes). */
  function SendPacket(viewerSN: Option<seq<byte>>, nalu: seq<byte>): (r: Option<seq<byte>>)
    requires viewerSN.Some? ==> |viewerSN.value| <= 255
    ensures r.None? <==> viewerSN.None?
    ensures r.Some? ==> r.value == Frame(viewerSN.value, nalu)
  {
    match viewerSN
    case None => None
    case Some(sn) => Some(Frame(sn, nalu))
  }

  /** handleEncodedFrame: the packets one encoded frame gives rise to. */
  function HandleEncodedFrame(viewerSN: Option<seq<byte>>, data: seq<byte>): (packets: seq<seq<byte>>)
    requires WellFormedAvcc(data, 0)
    requires viewerSN.Some? ==> |viewerSN.value| <= 255
    ensures viewerSN.None? ==> packets == []
    ensures viewerSN.Some? ==>
              |packets| == |AnnexBUnits(data, 0)| &&
              forall k :: 0 <= k < |packets| ==>
                packets[k] == Frame(viewerSN.value, AnnexBUnits(data, 0)[k])
  {
    match viewerSN
    case None => []
    case Some(sn) =>
      var units := AnnexBUnits(data, 0);
      seq(|units|, k requires 0 <= k < |units| => Frame(sn, units[k]))
  }
}

=== FILE: server_manager.dfy ===
/** The saved-server list of MiniOrangeI/ServerManager.swift: add with
    de-duplication by URL, rename by id, remove at offsets, forget the
    current server. Persistence is not modelled; the deferred work the
    manager dispatches to the main queue is returned as a request. */
module ServerManager {
  import opened Common
  import opened WebSocketManager

  /** A saved server: a generated id, its URL `u`, and an optional alias. */
  datatype ServerConfig = ServerConfig(id: string, u: string, name: Option<string>)

  /** ServerConfig's `==`: two configurations are equal when their URLs are,
      whatever their ids and names. */
  predicate SameServer(a: ServerConfig, b: ServerConfig) {
    a.u == b.u
  }

  datatype Servers = Servers(saved: seq<ServerConfig>, current: Option<ServerConfig>)

  /** No two saved entries share a URL. */
  predicate UniqueUrls(saved: seq<ServerConfig>) {
    forall i, j :: 0 <= i < j < |saved| ==> saved[i].u != saved[j].u
  }

  /** first(where: { $0 == config }): the first entry equal to `config`. */
  function FindSame(saved: seq<ServerConfig>, config: ServerConfig): (r: Option<nat>)
    ensures r.Some? ==> r.value < |saved| && SameServer(saved[r.value], config) &&
                        forall k :: 0 <= k < r.value ==> !SameServer(saved[k], config)
    ensures r.None? ==> forall k :: 0 <= k < |saved| ==> !SameServer(saved[k], config)
  {
    if |saved| == 0 then None
    else if SameServer(saved[0], config) then Some(0)
    else
      var rest := FindSame(saved[1..], config);
      if rest.Some? then Some(rest.value + 1) else None
  }

  datatype AddResult = AddResult(servers: Servers, server: ServerConfig, isNew: bool)

  /** addServer: an already saved URL returns the saved entry and changes
      nothing; a new one is appended and returned as new. */
  function AddServer(s: Servers, config: ServerConfig): (r: AddResult)
    ensures !r.isNew <==> exists k :: 0 <= k < |s.saved| && SameServer(s.saved[k], config)
    ensures !r.isNew ==> r.servers == s && r.server in s.saved && r.server.u == config.u
    ensures r.isNew ==> r.servers == s.(saved := s.saved + [config]) && r.server == config
    ensures UniqueUrls(s.saved) ==> UniqueUrls(r.servers.saved)
  {
    match FindSame(s.saved, config)
    case Some(k) => AddResult(s, s.saved[k], false)
    case None => AddResult(s.(saved := s.saved + [config]), config, true)
  }

  /** firstIndex(where: { $0.id == id }). */
  function FirstWithId(saved: seq<ServerConfig>, id: string): (r: Option<nat>)
    ensures r.Some? ==> r.value < |saved| && saved[r.value].id == id &&
                        forall k :: 0 <= k < r.value ==> saved[k].id != id
    ensures r.None? ==> forall k :: 0 <= k < |saved| ==> saved[k].id != id
  {
    if |saved| == 0 then None
    else if saved[0].id == id then Some(0)
    else
      var rest := FirstWithId(saved[1..], id);
      if rest.Some? then Some(rest.value + 1) else None
  }

  /** updateServerName: rename the first entry with the server's id, and
      the current server too when it has that id; nothing if no entry has it. */
  function UpdateServerName(s: Servers, serverId: string, newName: string): (r: Servers)
    ensures |r.saved| == |s.saved|
    ensures forall k :: 0 <= k < |s.saved| ==> r.saved[k].u == s.saved[k].u && r.saved[k].id == s.saved[k].id
    ensures FirstWithId(s.saved, serverId).None? ==> r == s
    ensures FirstWithId(s.saved, serverId).Some? ==>
              var i := FirstWithId(s.saved, serverId).value;
              r.saved[i].name == Some(newName) &&
              (forall k :: 0 <= k < |s.saved| && k != i ==> r.saved[k] == s.saved[k]) &&
              (s.current.Some? && s.current.value.id == serverId ==> r.current == Some(s.current.value.(name := Some(newName)))) &&
              (!(s.current.Some? && s.current.value.id == serverId) ==> r.current == s.current)
    ensures UniqueUrls(s.saved) ==> UniqueUrls(r.saved)
  {
    match FirstWithId(s.saved, serverId)
    case None => s
    case Some(i) =>
      var saved := s.saved[i := s.saved[i].(name := Some(newName))];
      var current := if s.current.Some? && s.current.value.id == serverId
                     then Some(s.current.value.(name := Some(newName))) else s.current;
      Servers(saved, current)
  }

  // ---------------------------------------------------------------------
  // Removal at offsets

  /** The indices below n that are not in `offsets`, in increasing order. */
  function Kept(n: nat, offsets: set<nat>): (r: seq<nat>)
    ensures forall k :: 0 <= k < |r| ==> r[k] < n && r[k] !in offsets
    ensures forall i :: 0 <= i < n && i !in offsets ==> i in r
    ensures forall a, b :: 0 <= a < b < |r| ==> r[a] < r[b]
  {
    if n == 0 then [] else Kept(n - 1, offsets) + (if n - 1 in offsets then [] else [n - 1])
  }

  /** The offsets below n. */
  function Below(offsets: set<nat>, n: nat): set<nat> {
    set i | i in offsets && i < n
  }

  /** Exactly |offsets| indices go. */
  lemma {:induction false} KeptCount(n: nat, offsets: set<nat>)
    ensures |Kept(n, offsets)| + |Below(offsets, n)| == n
  {
    if n > 0 {
      KeptCount(n - 1, offsets);
      BelowStep(offsets, n);
    }
  }

  /** How Kept and Below grow from n - 1 to n. */
  lemma BelowStep(offsets: set<nat>, n: nat)
    requires n > 0
    ensures n - 1 in offsets ==> |Below(offsets, n)| == |Below(offsets, n - 1)| + 1 && |Kept(n, offsets)| == |Kept(n - 1, offsets)|
    ensures n - 1 !in offsets ==> |Below(offsets, n)| == |Below(offsets, n - 1)| && |Kept(n, offsets)| == |Kept(n - 1, offsets)| + 1
  {
    var prev := Below(offsets, n - 1);
    assert n - 1 !in prev;
    if n - 1 in offsets {
      assert Below(offsets, n) == prev + {n - 1};
    } else {
      assert Below(offsets, n) == prev;
    }
  }

  /** remove(atOffsets:): the entries whose index is not among the offsets,
      in their original order. */
  function RemoveAt(saved: seq<ServerConfig>, offsets: set<nat>): (r: seq<ServerConfig>)
    requires forall i :: i in offsets ==> i < |saved|
    ensures |r| == |Kept(|saved|, offsets)| == |saved| - |offsets|
    ensures forall k :: 0 <= k < |r| ==> r[k] == saved[Kept(|saved|, offsets)[k]]
    ensures UniqueUrls(saved) ==> UniqueUrls(r)
  {
    var kept := Kept(|saved|, offsets);
    KeptCount(|saved|, offsets);
    assert Below(offsets, |saved|) == offsets;
    seq(|kept|, k requires 0 <= k < |kept| => saved[kept[k]])
  }

  datatype Removal = Removal(servers: Servers, disconnectRequested: bool)

  /** removeServer(at:): every removed entry carrying the current server's
      id requests the deferred disconnect; then the entries go. Offsets
      outside the list trap in the source, so they are excluded here. */
  function RemoveServer(s: Servers, offsets: set<nat>): (r: Removal)
    requires forall i :: i in offsets ==> i < |s.saved|
    ensures r.servers.saved == RemoveAt(s.saved, offsets) && r.servers.current == s.current
    ensures r.disconnectRequested <==>
              s.current.Some? && exists i :: i in offsets && s.saved[i].id == s.current.value.id
  {
    var hit := s.current.Some? && exists i :: i in offsets && s.saved[i].id == s.current.value.id;
    Removal(s.(saved := RemoveAt(s.saved, offsets)), hit)
  }

  /** removeAll(where: { $0.id == id }). */
  function WithoutId(saved: seq<ServerConfig>, id: string): (r: seq<ServerConfig>)
    ensures forall k :: 0 <= k < |r| ==> r[k].id != id
    ensures forall x :: x in saved && x.id != id ==> x in r
    ensures forall x :: x in r ==> x in saved
    ensures UniqueUrls(saved) ==> UniqueUrls(r)
  {
    if |saved| == 0 then []
    else
      var rest := WithoutId(saved[1..], id);
      if saved[0].id == id then rest
      else
        assert forall x :: x in rest ==> x in saved[1..];
        [saved[0]] + rest
  }

  /** removeAll(where:) works entry by entry, so the kept entries keep
      their order and their number. */
  lemma {:induction false} WithoutIdAppend(a: seq<ServerConfig>, b: seq<ServerConfig>, id: string)
    ensures WithoutId(a + b, id) == WithoutId(a, id) + WithoutId(b, id)
  {
    if |a| == 0 {
      assert a + b == b;
    } else {
      assert (a + b)[0] == a[0] && (a + b)[1..] == a[1..] + b;
      WithoutIdAppend(a[1..], b, id);
    }
  }

  /** An entry without the id is kept, an entry with it is dropped. */
  lemma WithoutIdSingle(x: ServerConfig, id: string)
    ensures WithoutId([x], id) == if x.id == id then [] else [x]
  {
    assert [x][1..] == [];
  }

  /** disconnectCurrent: nothing without a current server; otherwise
      forget every entry with its id and request the deferred disconnect. */
  function DisconnectCurrent(s: Servers): (r: Removal)
    ensures s.current.None? ==> r == Removal(s, false)
    ensures s.current.Some? ==>
              r.disconnectRequested && r.servers.current == s.current &&
              r.servers.saved == WithoutId(s.saved, s.current.value.id)
  {
    match s.current
    case None => Removal(s, false)
    case Some(cur) => Removal(s.(saved := WithoutId(s.saved, cur.id)), true)
  }

  /** The deferred block of internalDisconnectOnly, when the main queue runs
      it: no current server, and the connection manager disconnected. */
  function CompleteDisconnect(s: Servers, c: Conn): (r: (Servers, Conn))
    ensures r.0 == s.(current := None)
    ensures r.1 == Disconnect(c)
  {
    (s.(current := None), ClearState(Disconnect(c)))
  }

  /** switchTo (the state part): clear the connection manager's published
      state and make `server` current. The setup that follows runs later
      on the main queue, as a SetupRequested event. */
  function SwitchTo(s: Servers, c: Conn, server: ServerConfig): (r: (Servers, Conn))
    ensures r.0 == s.(current := Some(server))
    ensures r.1.devices == [] && r.1.workflows == [] && !r.1.isConnected && !r.1.offline
    ensures r.1.lastURL == c.lastURL && r.1.socket == c.socket
    ensures r.1.(devices := c.devices, workflows := c.workflows, isConnected := c.isConnected, offline := c.offline) == c
  {
    (s.(current := Some(server)), ClearState(c))
  }

  // ---------------------------------------------------------------------
  // Properties across calls

  /** Adding the same configuration twice: the second call finds the first
      entry and changes nothing. */
  lemma AddServerIdempotent(s: Servers, config: ServerConfig)
    ensures var once := AddServer(s, config).servers;
            var twice := AddServer(once, config);
            !twice.isNew && twice.servers == once
  {
    var once := AddServer(s, config);
    if once.isNew {
      assert SameServer(once.servers.saved[|s.saved|], config);
    }
  }

  /** Two configurations with the same URL are one server: whichever is
      added second is reported as existing, however its id and name differ. */
  lemma SameUrlIsSameServer(s: Servers, a: ServerConfig, b: ServerConfig)
    requires a.u == b.u
    ensures var first := AddServer(s, a);
            var second := AddServer(first.servers, b);
            !second.isNew && second.servers == first.servers && second.server.u == a.u
  {
    var first := AddServer(s, a);
    if first.isNew {
      assert SameServer(first.servers.saved[|s.saved|], b);
    }
  }

  /** Switching to a server and then disconnecting it forgets every entry
      with that server's id and requests the disconnect. */
  lemma SwitchThenDisconnect(s: Servers, c: Conn, server: ServerConfig)
    ensures var r := DisconnectCurrent(SwitchTo(s, c, server).0);
            r.disconnectRequested &&
            (forall x :: x in r.servers.saved ==> x.id != server.id) &&
            (forall x :: x in s.saved && x.id != server.id ==> x in r.servers.saved)
  {
  }

  /** Removing the current server's entry by offset requests the disconnect. */
  lemma RemovingCurrentDisconnects(s: Servers, i: nat)
    requires i < |s.saved| && s.current == Some(s.saved[i])
    ensures RemoveServer(s, {i}).disconnectRequested
    ensures |RemoveServer(s, {i}).servers.saved| == |s.saved| - 1
  {
    assert i in {i} && s.saved[i].id == s.current.value.id;
  }
}

=== FILE: websocket_manager.dfy ===
/** The connection lifecycle and control-message router of
    MiniOrangeI/WebSocketManager.swift as a state machine: every delegate
    callback, timer and user action is one atomic event applied to an
    immutable connection record. Sockets, sessions and timers are not
    represented; the record keeps what the manager can observe of them
    (is there a socket, for which URL; is the ping loop running; is a
    reconnect task held) plus the values it publishes. */
module WebSocketManager {
  import opened Common
  import opened Json
  import opened Models

  /** One URL query item. */
  datatype QueryItem = QueryItem(name: string, value: string)

  /** A parsed URL: its text without the query, its host if any, and its query items. */
  datatype Url = Url(base: string, host: Option<string>, query: seq<QueryItem>)

  /** The reconnectTask field: empty, holding a task still sleeping before
      it reconnects to `url`, or holding a task that was cancelled. A
      cancelled task skips the statement that would empty the field. */
  datatype ReconnectSlot = NoTask | Pending(url: Url) | Cancelled

  /** Notifications posted for the screen recorder. */
  datatype Notice = StartStream | StopStream

  /** What the manager knows about this client: identifierForVendor (or a
      fresh UUID), the persisted user token and the device name. */
  datatype Identity = Identity(clientSN: string, userToken: string, deviceName: string)

  datatype Conn = Conn(
    lastURL: Option<Url>,
    reconnect: ReconnectSlot,
    socket: Option<Url>,          // webSocketTask, by the URL it was opened for
    pingActive: bool,             // pingTask running
    isConnected: bool,
    isConnecting: bool,
    offline: bool,                // isDeviceOfflineFromCluster
    serverName: string,
    devices: seq<Device>,         // current value of deviceListSubject
    workflows: seq<WorkflowItem>, // last list sent on workflowSubject
    currentViewerSN: Option<string>,
    sent: seq<Json>,              // JSON messages handed to the socket, oldest first
    frames: seq<seq<byte>>,       // binary messages forwarded on videoFrameSubject
    passwords: seq<string>,       // values sent on passwordSubject
    notices: seq<Notice>)

  function Initial(): Conn {
    Conn(None, NoTask, None, false, false, false, false, "Unknown", [], [], None, [], [], [], [])
  }

  // ---------------------------------------------------------------------
  // Outgoing messages

  /** The registration message didOpen sends. */
  function RegisterMessage(id: Identity, reqId: string): Json {
    JObject(map[
      "action" := JString("register"),
      "req_id" := JString(reqId),
      "data" := JObject(map[
        "sn" := JString(id.clientSN),
        "type" := JString("ios"),
        "role" := JString("client"),
        "model" := JString(id.deviceName),
        "token" := JString(id.userToken)])])
  }

  /** The business heartbeat the ping loop sends every round. */
  function HeartbeatMessage(id: Identity): Json {
    JObject(map["action" := JString("heartbeat"), "data" := JObject(map["sn" := JString(id.clientSN)])])
  }

  /** A registration of this client: action "register" with the client's
      serial number, type "ios", role "client" and its token. */
  predicate IsRegistration(m: Json, id: Identity) {
    m.JObject? && StringField(m.fields, "action") == Some("register") &&
    ObjectField(m.fields, "data").Some? &&
    var d := ObjectField(m.fields, "data").value;
    StringField(d, "sn") == Some(id.clientSN) && StringField(d, "type") == Some("ios") &&
    StringField(d, "role") == Some("client") && StringField(d, "token") == Some(id.userToken)
  }

  /** send(json:): the message goes out only through an existing socket. */
  function Send(c: Conn, m: Json): (r: Conn)
    ensures c.socket.Some? ==> r.sent == c.sent + [m]
    ensures c.socket.None? ==> r == c
    ensures r.(sent := c.sent) == c
  {
    if c.socket.Some? then c.(sent := c.sent + [m]) else c
  }

  // ---------------------------------------------------------------------
  // Lifecycle

  /** reconnectTask?.cancel(): a held task is cancelled but stays in the field. */
  function CancelTask(s: ReconnectSlot): (r: ReconnectSlot)
    ensures !r.Pending?
    ensures r.NoTask? <==> s.NoTask?
  {
    if s.Pending? then Cancelled else s
  }

  /** clearState. */
  function ClearState(c: Conn): (r: Conn)
    ensures r.devices == [] && r.workflows == [] && !r.isConnected && !r.offline
    ensures r.(devices := c.devices, workflows := c.workflows, isConnected := c.isConnected, offline := c.offline) == c
  {
    c.(devices := [], workflows := [], isConnected := false, offline := false)
  }

  /** connect(url:): cancel a held reconnect task, remember the URL, open a
      socket for it and (re)start receiving and the ping loop. The
      connected flag is left as it was until didOpen. */
  function Connect(c: Conn, url: Url): (r: Conn)
    ensures r.lastURL == Some(url) && r.socket == Some(url)
    ensures r.isConnecting && r.pingActive && r.isConnected == c.isConnected
    ensures !r.reconnect.Pending? && (r.reconnect.NoTask? <==> c.reconnect.NoTask?)
    ensures r.(reconnect := c.reconnect, isConnecting := c.isConnecting, lastURL := c.lastURL,
               socket := c.socket, pingActive := c.pingActive) == c
  {
    c.(reconnect := CancelTask(c.reconnect), isConnecting := true, lastURL := Some(url),
       socket := Some(url), pingActive := true)
  }

  /** internalDisconnect: close the socket, stop the ping loop, drop both flags. */
  function InternalDisconnect(c: Conn): (r: Conn)
    ensures !r.isConnecting && !r.isConnected && r.socket.None? && !r.pingActive
    ensures r.(isConnecting := c.isConnecting, socket := c.socket, pingActive := c.pingActive,
               isConnected := c.isConnected) == c
  {
    c.(isConnecting := false, socket := None, pingActive := false, isConnected := false)
  }

  /** disconnect: forget the URL, cancel a held reconnect task, then
      internalDisconnect and clearState. */
  function Disconnect(c: Conn): (r: Conn)
    ensures r.lastURL.None? && !r.reconnect.Pending? && r.socket.None? && !r.pingActive
    // the cancelled task stays in the field: it is occupied iff it was
    ensures r.reconnect.NoTask? <==> c.reconnect.NoTask?
    ensures !r.isConnected && !r.isConnecting && !r.offline
    ensures r.devices == [] && r.workflows == []
    ensures r.(lastURL := c.lastURL, reconnect := c.reconnect, socket := c.socket, pingActive := c.pingActive,
               isConnected := c.isConnected, isConnecting := c.isConnecting, offline := c.offline,
               devices := c.devices, workflows := c.workflows) == c
  {
    ClearState(InternalDisconnect(c.(lastURL := None, reconnect := CancelTask(c.reconnect))))
  }

  /** scheduleReconnect: only with a remembered URL and an empty task field. */
  function ScheduleReconnect(c: Conn): (r: Conn)
    ensures c.lastURL.Some? && c.reconnect.NoTask? ==> r == c.(reconnect := Pending(c.lastURL.value))
    ensures !(c.lastURL.Some? && c.reconnect.NoTask?) ==> r == c
  {
    if c.lastURL.Some? && c.reconnect.NoTask? then c.(reconnect := Pending(c.lastURL.value)) else c
  }

  /** The reconnect task wakes up after three seconds. A task that was not
      cancelled empties the field and connects; a cancelled one does nothing. */
  function TimerFired(c: Conn): (r: Conn)
    ensures c.reconnect.Pending? ==> r == Connect(c.(reconnect := NoTask), c.reconnect.url)
    ensures !c.reconnect.Pending? ==> r == c
  {
    match c.reconnect
    case Pending(url) => Connect(c.(reconnect := NoTask), url)
    case _ => c
  }

  /** A transport failure (receive error, ping error, or close): disconnect
      internally, then try to schedule a reconnect. */
  function Failure(c: Conn): (r: Conn)
    ensures !r.isConnected && !r.isConnecting && r.socket.None? && !r.pingActive
    ensures r.lastURL == c.lastURL
    ensures c.lastURL.Some? && c.reconnect.NoTask? ==> r.reconnect == Pending(c.lastURL.value)
    ensures !(c.lastURL.Some? && c.reconnect.NoTask?) ==> r.reconnect == c.reconnect
    ensures r.(isConnecting := c.isConnecting, socket := c.socket, pingActive := c.pingActive,
               isConnected := c.isConnected, reconnect := c.reconnect) == c
  {
    ScheduleReconnect(InternalDisconnect(c))
  }

  /** didOpen: connected, no longer connecting, and register with the server. */
  function Opened(c: Conn, id: Identity, reqId: string): (r: Conn)
    ensures r.isConnected && !r.isConnecting
    ensures c.socket.Some? ==> r.sent == c.sent + [RegisterMessage(id, reqId)]
    ensures c.socket.None? ==> r.sent == c.sent
    ensures r.(isConnected := c.isConnected, isConnecting := c.isConnecting, sent := c.sent) == c
  {
    Send(c.(isConnected := true, isConnecting := false), RegisterMessage(id, reqId))
  }

  /** One round of the ping loop, three seconds after the last: a stopped
      loop does nothing; a loop that finds the manager disconnected ends;
      otherwise a ping (whose failure is its own event) and a heartbeat. */
  function HeartbeatDue(c: Conn, id: Identity): (r: Conn)
    ensures !c.pingActive ==> r == c
    ensures c.pingActive && !c.isConnected ==> r == c.(pingActive := false)
    ensures c.pingActive && c.isConnected ==> r == Send(c, HeartbeatMessage(id))
    // a round only ever stops the loop or sends one heartbeat
    ensures r.(pingActive := c.pingActive, sent := c.sent) == c
    ensures r.sent == c.sent || r.sent == c.sent + [HeartbeatMessage(id)]
  {
    if !c.pingActive then c
    else if !c.isConnected then c.(pingActive := false)
    else Send(c, HeartbeatMessage(id))
  }

  // ---------------------------------------------------------------------
  // setup(url:)

  /** The query items after setup's token handling: every "token" item
      removed, then the user token appended. */
  function WithToken(items: seq<QueryItem>, token: string): (r: seq<QueryItem>)
    ensures |r| > 0 && Last(r) == QueryItem("token", token)
    ensures forall k :: 0 <= k < |r| - 1 ==> r[k].name != "token"
  {
    WithoutToken(items) + [QueryItem("token", token)]
  }

  /** removeAll(where: name == "token"). */
  function WithoutToken(items: seq<QueryItem>): (r: seq<QueryItem>)
    ensures forall k :: 0 <= k < |r| ==> r[k].name != "token"
    ensures forall q :: q in items && q.name != "token" ==> q in r
    ensures forall q :: q in r ==> q in items
  {
    if |items| == 0 then []
    else if items[0].name == "token" then WithoutToken(items[1..])
    else [items[0]] + WithoutToken(items[1..])
  }

  /** setup(url:): clear the published state; if the text parses as a URL,
      take its host as the server name, and if the URL can be rebuilt with
      the user token as the only "token" query item, connect to that.
      `parsed` is URL(string:)'s verdict on the text and `rebuilt` whether
      URLComponents yields a URL again. */
  function Setup(c: Conn, id: Identity, parsed: Option<Url>, rebuilt: bool): (r: Conn)
    ensures r.devices == [] && r.workflows == [] && !r.offline && !r.isConnected
    ensures parsed.None? ==> r == ClearState(c)
    ensures parsed.Some? ==>
              r.serverName == (if parsed.value.host.Some? then parsed.value.host.value else "Unknown")
    ensures parsed.Some? && !rebuilt ==> r == ClearState(c).(serverName := r.serverName)
    ensures parsed.Some? && rebuilt ==>
              r.lastURL.Some? && r.socket == r.lastURL && r.isConnecting && r.pingActive &&
              r.lastURL.value.base == parsed.value.base && r.lastURL.value.host == parsed.value.host &&
              r.lastURL.value.query == WithToken(parsed.value.query, id.userToken)
  {
    var cleared := ClearState(c);
    match parsed
    case None => cleared
    case Some(u) =>
      var named := cleared.(serverName := if u.host.Some? then u.host.value else "Unknown");
      if rebuilt then Connect(named, u.(query := WithToken(u.query, id.userToken))) else named
  }

  // ---------------------------------------------------------------------
  // Control messages

  /** One entry of a device list, if it carries string `sn` and `model`;
      a missing or non-string status reads as "offline". */
  function DeviceOf(o: map<string, Json>): (r: Option<Device>)
    ensures r.Some? <==> StringField(o, "sn").Some? && StringField(o, "model").Some?
    ensures r.Some? ==> r.value.sn == StringField(o, "sn").value && r.value.model == StringField(o, "model").value
    ensures r.Some? ==> r.value.status == (if StringField(o, "status").Some? then StringField(o, "status").value else "offline")
  {
    match (StringField(o, "sn"), StringField(o, "model"))
    case (Some(sn), Some(model)) =>
      var status := StringField(o, "status");
      Some(Device(sn, model, if status.Some? then status.value else "offline"))
    case _ => None
  }

  /** compactMap of DeviceOf: the well-formed entries, in order. */
  function DecodeDevices(items: seq<map<string, Json>>): (r: seq<Device>)
    ensures |r| <= |items|
  {
    if |items| == 0 then []
    else
      var rest := DecodeDevices(items[1..]);
      match DeviceOf(items[0])
      case Some(d) => [d] + rest
      case None => rest
  }

  /** One dashboard entry, if it carries string `id`, `name` and `icon`. */
  function WorkflowOf(o: map<string, Json>): (r: Option<WorkflowItem>)
    ensures r.Some? <==> StringField(o, "id").Some? && StringField(o, "name").Some? && StringField(o, "icon").Some?
    ensures r.Some? ==> r.value.id == StringField(o, "id").value && r.value.name == StringField(o, "name").value &&
                        r.value.icon == StringField(o, "icon").value && r.value.color == StringField(o, "color")
  {
    match (StringField(o, "id"), StringField(o, "name"), StringField(o, "icon"))
    case (Some(i), Some(n), Some(ic)) => Some(WorkflowItem(i, n, ic, StringField(o, "color")))
    case _ => None
  }

  /** compactMap of WorkflowOf: the well-formed entries, in order. */
  function DecodeWorkflows(items: seq<map<string, Json>>): (r: seq<WorkflowItem>)
    ensures |r| <= |items|
  {
    if |items| == 0 then []
    else
      var rest := DecodeWorkflows(items[1..]);
      match WorkflowOf(items[0])
      case Some(w) => [w] + rest
      case None => rest
  }

  /** The action branch of handleMessage. */
  function Dispatch(c: Conn, action: string, o: map<string, Json>): (r: Conn)
    ensures r.offline == c.offline && r.lastURL == c.lastURL && r.reconnect == c.reconnect
    ensures r.socket == c.socket && r.isConnected == c.isConnected && r.sent == c.sent
    ensures r.devices != c.devices ==> action == "device_list" || action == "get_device_list"
    ensures r.workflows != c.workflows ==> action == "app_graph/list"
    ensures r.currentViewerSN != c.currentViewerSN ==> action == "start_stream"
    ensures r.passwords != c.passwords ==> action == "get_device_password"
    ensures r.notices != c.notices ==> action == "start_stream" || action == "stop_stream"
    ensures r.frames == c.frames && r.serverName == c.serverName && r.pingActive == c.pingActive &&
            r.isConnecting == c.isConnecting
    // what each action publishes when its data has the expected shape
    ensures action == "app_graph/list" && ObjectListField(o, "data").Some? ==>
              r == c.(workflows := DecodeWorkflows(ObjectListField(o, "data").value))
    ensures (action == "device_list" || action == "get_device_list") && ObjectListField(o, "data").Some? ==>
              r == c.(devices := DecodeDevices(ObjectListField(o, "data").value))
    ensures action == "get_device_password" && ObjectField(o, "data").Some? &&
            StringField(ObjectField(o, "data").value, "password").Some? ==>
              r == c.(passwords := c.passwords + [StringField(ObjectField(o, "data").value, "password").value])
    ensures action == "start_stream" && ObjectField(o, "data").Some? &&
            StringField(ObjectField(o, "data").value, "viewer_sn").Some? ==>
              r == c.(currentViewerSN := StringField(ObjectField(o, "data").value, "viewer_sn"),
                      notices := c.notices + [StartStream])
    ensures action == "stop_stream" ==> r == c.(notices := c.notices + [StopStream])
    // and nothing otherwise
    ensures action in {"app_graph/list", "device_list", "get_device_list"} && ObjectListField(o, "data").None? ==> r == c
    ensures action == "get_device_password" &&
            (ObjectField(o, "data").None? || StringField(ObjectField(o, "data").value, "password").None?)
            ==> r == c
    ensures action == "start_stream" &&
            (ObjectField(o, "data").None? || StringField(ObjectField(o, "data").value, "viewer_sn").None?)
            ==> r == c
    ensures action !in {"app_graph/list", "device_list", "get_device_list", "get_device_password",
                        "start_stream", "stop_stream"}
            ==> r == c
  {
    if action == "app_graph/list" then
      match ObjectListField(o, "data")
      case Some(items) => c.(workflows := DecodeWorkflows(items))
      case None => c
    else if action == "device_list" || action == "get_device_list" then
      match ObjectListField(o, "data")
      case Some(items) => c.(devices := DecodeDevices(items))
      case None => c
    else if action == "get_device_password" then
      match ObjectField(o, "data")
      case Some(d) =>
        (match StringField(d, "password")
         case Some(p) => c.(passwords := c.passwords + [p])
         case None => c)
      case None => c
    else if action == "start_stream" then
      match ObjectField(o, "data")
      case Some(d) =>
        (match StringField(d, "viewer_sn")
         case Some(v) => c.(currentViewerSN := Some(v), notices := c.notices + [StartStream])
         case None => c)
      case None => c
    else if action == "stop_stream" then c.(notices := c.notices + [StopStream])
    else c
  }

  /** handleMessage on a decoded message. A value that is not an object is
      dropped; the status code is looked at before the action. */
  function HandleMessage(c: Conn, m: Json): (r: Conn)
    ensures !m.JObject? ==> r == c
    ensures m.JObject? ==>
              r.offline == (if IntField(m.fields, "code") == Some(503) then true
                            else if IntField(m.fields, "code") == Some(200) &&
                                    StringField(m.fields, "action") == Some("register") then false
                            else c.offline)
    ensures r.lastURL == c.lastURL && r.reconnect == c.reconnect && r.socket == c.socket
    ensures r.isConnected == c.isConnected && r.sent == c.sent
  {
    match m
    case JObject(o) =>
      if IntField(o, "code") == Some(503) then c.(offline := true)
      else Route(AfterStatus(c, o), o)
    case _ => c
  }

  /** The status check for a code other than 503: 200 with action
      "register" clears the offline flag. */
  function AfterStatus(c: Conn, o: map<string, Json>): (r: Conn)
    ensures r.offline == if IntField(o, "code") == Some(200) && StringField(o, "action") == Some("register") then false else c.offline
    ensures r == c.(offline := r.offline)
  {
    if IntField(o, "code") == Some(200) && StringField(o, "action") == Some("register") then c.(offline := false) else c
  }

  /** A message without a string action is dropped; any other is dispatched. */
  function Route(c: Conn, o: map<string, Json>): (r: Conn)
    ensures StringField(o, "action").None? ==> r == c
    ensures r.offline == c.offline && r.lastURL == c.lastURL && r.reconnect == c.reconnect
    ensures r.socket == c.socket && r.isConnected == c.isConnected && r.sent == c.sent
  {
    match StringField(o, "action")
    case Some(a) => Dispatch(c, a, o)
    case None => c
  }

  // ---------------------------------------------------------------------
  // Events

  datatype Event =
    | SetupRequested(parsed: Option<Url>, rebuilt: bool)
    | ConnectRequested(url: Url)
    | DisconnectRequested
    | ReconnectTimerFired
    | DidOpen(reqId: string)
    | DidClose
    | ReceiveFailed
    | TextReceived(message: Option<Json>)   // None: the text is not a JSON object
    | DataReceived(bytes: seq<byte>)
    | PingFailed
    | HeartbeatTimerFired

  /** A held reconnect task is for the URL the manager remembers. */
  predicate SlotConsistent(c: Conn) {
    c.reconnect.Pending? ==> c.lastURL == Some(c.reconnect.url)
  }

  /** The manager's reaction to one event. At most one reconnect task is
      ever held, and it is for the remembered URL; once cancelled, the
      field stays occupied whatever happens next. */
  function Step(c: Conn, id: Identity, e: Event): (r: Conn)
    ensures SlotConsistent(c) ==> SlotConsistent(r)
    ensures c.reconnect.Cancelled? ==> r.reconnect.Cancelled?
  {
    match e
    case SetupRequested(parsed, rebuilt) => Setup(c, id, parsed, rebuilt)
    case ConnectRequested(url) => Connect(c, url)
    case DisconnectRequested => Disconnect(c)
    case ReconnectTimerFired => TimerFired(c)
    case DidOpen(reqId) => Opened(c, id, reqId)
    case DidClose => Failure(c)
    case ReceiveFailed => Failure(c)
    case TextReceived(message) => if message.Some? then HandleMessage(c, message.value) else c
    case DataReceived(bytes) => c.(frames := c.frames + [bytes])
    case PingFailed => Failure(c)
    case HeartbeatTimerFired => HeartbeatDue(c, id)
  }

  /** The state after a sequence of events, applied oldest first. */
  function Run(c: Conn, id: Identity, events: seq<Event>): (r: Conn)
    ensures SlotConsistent(c) ==> SlotConsistent(r)
    decreases |events|
  {
    if |events| == 0 then c else Run(Step(c, id, events[0]), id, events[1..])
  }

  lemma RunAppend(c: Conn, id: Identity, a: seq<Event>, b: seq<Event>)
    ensures Run(c, id, a + b) == Run(Run(c, id, a), id, b)
    decreases |a|
  {
    if |a| == 0 {
      assert a + b == b;
    } else {
      assert (a + b)[1..] == a[1..] + b;
      RunAppend(Step(c, id, a[0]), id, a[1..], b);
    }
  }
}
